=== FILE: README.md ===
# Employee roster: collection store and record editor, in Dafny

This project models the core of a small employee-roster web application.

The **collection store** (`employeesSlice.ts`) keeps four things:

- the canonical `list` of employee records;
- the derived `filteredList`, which is the view the list page renders;
- the filter criteria: a role (or none) and an "archived only" flag;
- the sort criteria: name or birthday, ascending or descending.

It has four reducers: `setFilter`, `setSort`, `addEmployee` and `updateEmployee`. Two helpers support them: `applyFilters` and `applySorting`.

The **record editor logic** has three parts:

- `validation.ts` checks that the four text fields are required;
- the `+7 (DDD) DDD-DDDD` phone mask and its Backspace rule, from the edit page;
- the submit decision, which validates the form and then dispatches `updateEmployee` or `addEmployee`.

Everything is modelled as pure functions over immutable datatypes:

- reducers map a state to a state;
- a key press maps to a `KeyDownEffect`;
- a submit maps to the errors it shows and the action it dispatches.

JavaScript behaviour is written out where it matters:

- `!filter.role` holds for both `null` and `""`;
- object spread merges only the fields a payload carries;
- `String.prototype.trim` removes the ECMAScript whitespace characters;
- `findIndex` returns -1 when nothing matches;
- `split('.').reverse().join('-')` is modelled exactly; `new Date` is modelled on `YYYY-MM-DD` strings of valid calendar dates, with `getTime` in milliseconds since 1970-01-01 (engines that roll out-of-range days over are not followed, see the second `Sorting.Compare` line under "## Left out");
- a comparator that returns NaN (an unreadable date) is read by `sort` as 0.

Files (one module each):

| file | module | what |
|---|---|---|
| common.dfy | `Common` | `Option`, `Min`, the subsequence relation |
| text.dfy | `Text` | digit extraction, `trim`, `split`/`join`/`reverse`, code-point `localeCompare` |
| dates.dfy | `Dates` | calendar dates, ISO and dotted forms, time values |
| roster.dfy | `Roster` | the record and the criteria datatypes |
| filtering.dfy | `Filtering` | `applyFilters` |
| stable_sort.dfy | `StableSort` | a stable insertion sort over any comparator that is a total preorder on the values it sorts |
| sorting.dfy | `Sorting` | the slice comparator and `applySorting` |
| employees_slice.dfy | `EmployeesSlice` | the state, the reducers, the invariant they keep |
| validation.dfy | `Validation` | `isRequired`, `validateEmployee` |
| phone_mask.dfy | `PhoneMask` | `formatPhoneNumber`, `handlePhoneKeyDown` |
| employee_edit.dfy | `EmployeeEdit` | `handleSubmit` and what it does to the store |
| slice_examples.dfy | `SliceExamples` | the slice test scenarios on their two records |

## Model

| member | source | states |
|---|---|---|
| Text.Digits | src/pages/EmployeeEdit/EmployeeEdit.tsx:62 | `value.replace(/\D/g, '')` keeps only decimal digits and is never longer than the value; with DigitsEmptyIffNoDigit, DigitsAppend and DigitsOfDigits it is empty exactly without digits, distributes over concatenation and leaves a digit string unchanged |
| Text.DigitsEmptyIffNoDigit | src/pages/EmployeeEdit/EmployeeEdit.tsx:62-64 | `value.replace(/\D/g, '')` is empty exactly when the value has no decimal digit |
| Text.DigitsAppend | src/pages/EmployeeEdit/EmployeeEdit.tsx:62 | the digits of a concatenation are the digits of each part, concatenated |
| Text.DigitsOfDigits | src/pages/EmployeeEdit/EmployeeEdit.tsx:62 | stripping non-digits from an all-digit string changes nothing |
| Text.Trim | src/utils/validation.ts:15 | `value.trim()` is empty exactly when the value consists of whitespace only |
| Text.TrimStartBlank | src/utils/validation.ts:15 | trimming the front empties the string exactly when it is blank, and otherwise leaves a non-whitespace first character |
| Text.Reverse | src/store/slices/employeesSlice.ts:106 | the reversed sequence has the same length and holds element `n-1-i` at position `i` |
| Text.Split | src/store/slices/employeesSlice.ts:106 | `split(sep)` yields at least one part, and no part contains the separator |
| Text.JoinSplit | src/store/slices/employeesSlice.ts:106 | joining the parts of a split with the same separator gives back the original string |
| Text.SplitAtFirstSeparator | src/store/slices/employeesSlice.ts:106 | splitting `a + sep + b` where `a` has no separator yields `a` followed by the parts of `b` |
| Text.LexTrichotomy | src/store/slices/employeesSlice.ts:102-104 | the name order is total, asymmetric and irreflexive |
| Text.LexTransitive | src/store/slices/employeesSlice.ts:102-104 | the name order is transitive |
| Text.LocaleCompare | src/store/slices/employeesSlice.ts:102-104 | `localeCompare` is 0 exactly for equal names, negative exactly when the first name comes first, and lies in -1..1 |
| Dates.PadDigits | src/store/slices/employeesSlice.ts:106 | a zero-padded field has exactly the requested width and consists of digits |
| Dates.ParsePadded | src/store/slices/employeesSlice.ts:106 | reading back a zero-padded field gives the number that was written, when it fits the width |
| Dates.PadParsed | src/store/slices/employeesSlice.ts:106 | re-padding the value of a digit field gives back the field |
| Dates.ParseIsoDate | src/store/slices/employeesSlice.ts:106 | the model reads a `YYYY-MM-DD` string as valid only for a real calendar date (month 1..12, day within the month, leap years counted); engines that roll day overflow over are not followed (see "## Left out") |
| Dates.IsoRoundTrip | src/store/slices/employeesSlice.ts:106 | every calendar date is read back from its `YYYY-MM-DD` form |
| Dates.IsoParseCanonical | src/store/slices/employeesSlice.ts:106 | every string that reads as a date is the canonical `YYYY-MM-DD` form of that date |
| Dates.DottedToIso | src/store/slices/employeesSlice.ts:106 | `split('.').reverse().join('-')` turns `DD.MM.YYYY` into `YYYY-MM-DD` |
| Dates.ToIsoForm | src/store/slices/employeesSlice.ts:106 | `split('.').reverse().join('-')` never leaves a dot in the result; DottedToIso and IsoFormWithoutDots pin it on the two stored forms |
| Dates.BirthdayKey | src/store/slices/employeesSlice.ts:106 | `new Date` of the rewritten birthday yields only valid calendar dates; BirthdayKeyOfBothForms reads both stored forms as the same date |
| Dates.IsoFormWithoutDots | src/store/slices/employeesSlice.ts:106 | a birthday without dots, such as the editor's `YYYY-MM-DD`, passes the rewriting unchanged |
| Dates.BirthdayKeyOfBothForms | src/store/slices/employeesSlice.ts:106-107 | the comparator reads a date from both the dotted and the ISO form of it |
| Dates.EarlierDayNumber | src/store/slices/employeesSlice.ts:109-110 | an earlier calendar date has a smaller day count since year 0 |
| Dates.TimeValueOrder | src/store/slices/employeesSlice.ts:109-110 | `getTime()` values compare exactly as the calendar dates do, and are equal only for the same date |
| Filtering.ApplyFilters | src/store/slices/employeesSlice.ts:85-97 | the view is a subsequence of the list, every record in it passes the role and archive tests, and each record the tests accept keeps its multiplicity while each one they reject is gone |
| Filtering.ArchiveFlagOffKeepsBoth | src/store/slices/employeesSlice.ts:92-93 | with the archived-only flag off, archived and active records are treated alike |
| Filtering.ArchivingNeverHides | src/store/slices/employeesSlice.ts:92-93 | a record that passes the filter still passes it once archived |
| Filtering.UnrestrictedFilterIsIdentity | src/store/slices/employeesSlice.ts:89-96 | with no role and the flag off, the view is the whole list in list order |
| Filtering.FilterIdempotent | src/store/slices/employeesSlice.ts:85-97 | filtering a filtered view again changes nothing |
| StableSort.Insert | src/store/slices/employeesSlice.ts:100 | inserting adds exactly that one element |
| StableSort.SortBy | src/store/slices/employeesSlice.ts:100 | the sorted copy is a permutation of its input |
| StableSort.InsertSorted | src/store/slices/employeesSlice.ts:100 | inserting into a sorted sequence keeps it sorted, for a comparator that is a total preorder on the values |
| StableSort.SortBySorted | src/store/slices/employeesSlice.ts:100 | the sorted copy is sorted, for a comparator that is a total preorder on the values |
| StableSort.SortedIsFixedPoint | src/store/slices/employeesSlice.ts:100 | sorting an already sorted sequence returns it unchanged |
| StableSort.AllSatisfyPermutation | src/store/slices/employeesSlice.ts:100 | a property every element has survives a permutation |
| Sorting.Compare | src/store/slices/employeesSlice.ts:100-111 | by name: 0 exactly for equal names, negative exactly when the first name is code-point smaller (operands swapped for `desc`); by birthday: 0 when either date is unreadable |
| Sorting.BirthdayCompareMeaning | src/store/slices/employeesSlice.ts:106-110 | with both dates readable, the birthday comparison is 0 exactly for the same date and negative exactly when the first date is earlier in the calendar (later, for `desc`) |
| Sorting.CompareAntisymmetric | src/store/slices/employeesSlice.ts:100-111 | swapping the operands negates the comparison, for both fields and directions |
| Sorting.CompareTotal | src/store/slices/employeesSlice.ts:100-112 | any two records with readable keys are ordered one way or the other |
| Sorting.CompareTransitive | src/store/slices/employeesSlice.ts:100-112 | the comparator is transitive on records with readable keys |
| Sorting.ComparatorConsistent | src/store/slices/employeesSlice.ts:100-112 | the slice comparator is a total preorder on records with readable keys, in every direction |
| Sorting.ApplySorting | src/store/slices/employeesSlice.ts:99-113 | the sorted view is a permutation of the view it sorts |
| Sorting.ApplySortingSorted | src/store/slices/employeesSlice.ts:99-113 | when every key is readable, the result is sorted under the criteria |
| Sorting.SortTwiceIsSortOnce | src/store/slices/employeesSlice.ts:99-113 | sorting twice under the same criteria gives the same view as sorting once |
| Sorting.SortedViewUnchanged | src/store/slices/employeesSlice.ts:99-113 | a view already sorted under the criteria comes back unchanged |
| Sorting.DescendingIsReversedAscending | src/store/slices/employeesSlice.ts:102-110 | reversing an ascending view gives a descending one, for either field |
| Sorting.NameAscendingMeaning | src/store/slices/employeesSlice.ts:102-104 | a view is sorted by name ascending exactly when no later name comes strictly before an earlier one |
| Sorting.BirthdayAscendingMeaning | src/store/slices/employeesSlice.ts:106-110 | with readable dates, a view is sorted by birthday ascending exactly when no later birthday is strictly earlier in the calendar |
| EmployeesSlice.InitialState | src/store/slices/employeesSlice.ts:25-36 | the start-up state has the loaded list, no role, the archived-only flag off, name ascending, and the list itself as the view |
| EmployeesSlice.InitialStateInvariant | src/store/slices/employeesSlice.ts:25-36 | the start-up state satisfies the store invariant exactly when the loaded ids are unique |
| EmployeesSlice.MergeFilter | src/store/slices/employeesSlice.ts:49 | `{ ...filter, ...payload }`: a field the payload carries replaces the old one, an absent field keeps it |
| EmployeesSlice.MergeFilterLaws | src/store/slices/employeesSlice.ts:49 | the filter spread is idempotent, an empty payload changes nothing, and a payload with both fields forgets the old filter |
| EmployeesSlice.SetFilter | src/store/slices/employeesSlice.ts:42-51 | only the payload's fields change the filter; the list and sort are untouched; the view is the filtered list in list order |
| EmployeesSlice.SetFilterSorted | src/store/slices/employeesSlice.ts:42-51 | the corrected `setFilter` has the same filter merge and contents, and its view is sorted under the current criteria when every key is readable |
| EmployeesSlice.SetFilterIdempotent | src/store/slices/employeesSlice.ts:49-50 | dispatching the same `setFilter` payload twice gives the state once |
| EmployeesSlice.MergeSort | src/store/slices/employeesSlice.ts:60 | `{ ...sort, ...payload }`: a field the payload carries replaces the old one, an absent field keeps it |
| EmployeesSlice.MergeSortLaws | src/store/slices/employeesSlice.ts:60 | the sort spread is idempotent, an empty payload changes nothing, and a payload with both fields forgets the old criteria |
| EmployeesSlice.SetSort | src/store/slices/employeesSlice.ts:53-62 | only the payload's fields change the sort; the list and filter are untouched; the view keeps its records (no filtered-out record comes back) and is sorted when every key is readable |
| EmployeesSlice.SetSortIdempotent | src/store/slices/employeesSlice.ts:60-61 | dispatching the same `setSort` payload twice gives the state once, when every key is readable |
| EmployeesSlice.MaxId | src/store/slices/employeesSlice.ts:64 | `Math.max` over the ids is at least every id and is one of them |
| EmployeesSlice.DerivedView | src/store/slices/employeesSlice.ts:67-68 | the re-derived view holds exactly the filtered records and is sorted when every key is readable |
| EmployeesSlice.AddEmployee | src/store/slices/employeesSlice.ts:63-71 | the record is appended, the earlier records are unchanged, its fields are the payload's, its id is above every existing id and one above some id, and the view is re-derived |
| EmployeesSlice.AddKeepsIdsUnique | src/store/slices/employeesSlice.ts:63-66 | adding a record keeps ids unique |
| EmployeesSlice.FindIndexById | src/store/slices/employeesSlice.ts:73 | `findIndex` gives the first position with the id, or -1 exactly when no record has it |
| EmployeesSlice.FirstMatchIsFound | src/store/slices/employeesSlice.ts:73 | `findIndex` reports the first position holding the id, whichever that is |
| EmployeesSlice.UpdateEmployee | src/store/slices/employeesSlice.ts:72-81 | the record at the first matching position is replaced in place, an unknown id leaves the list as it was, the length never changes, and the view is re-derived |
| EmployeesSlice.UpdateKeepsIdsUnique | src/store/slices/employeesSlice.ts:72-76 | updating a record keeps ids unique |
| EmployeesSlice.UpdateReplacesRecordWithId | src/store/slices/employeesSlice.ts:72-76 | with unique ids, the one record with the payload's id is the one replaced |
| EmployeesSlice.Reduce | src/store/slices/employeesSlice.ts:41-82 | no reducer shrinks the list |
| EmployeesSlice.ReducePreservesInvariant | src/store/slices/employeesSlice.ts:41-82 | every reducer keeps ids unique and the view equal, up to order, to the filtered list |
| EmployeesSlice.RunPreservesInvariant | src/store/slices/employeesSlice.ts:41-82 | any sequence of dispatched actions keeps the invariant |
| Validation.IsRequired | src/utils/validation.ts:11-22 | an error exactly for an empty or whitespace-only value, naming the field with the fixed message |
| Validation.CollectErrors | src/utils/validation.ts:39-45 | the `forEach` collects at most one error per entry; SourceEntry, BlankAreCollected and CollectedInOrder say which errors, from which entries, in what order |
| Validation.SourceEntry | src/utils/validation.ts:39-45 | every collected error is the labelled error of some blank entry |
| Validation.BlankAreCollected | src/utils/validation.ts:39-45 | every blank entry has its labelled error collected |
| Validation.CollectedInOrder | src/utils/validation.ts:32-45 | errors come out in checklist order |
| Validation.NoErrorsIffNoBlank | src/utils/validation.ts:39-50 | no error is collected exactly when no entry is blank |
| Validation.HasErrorIffBlank | src/utils/validation.ts:39-45 | for distinct field keys, a field has an error exactly when its value is blank |
| Validation.CollectedMessages | src/utils/validation.ts:42 | every message is the field's label, a colon and the required-field message |
| Validation.ValidateChecklist | src/utils/validation.ts:32-50 | on the four-field checklist: empty error list iff no field is blank, one error per blank field, label-prefixed messages, form order |
| Validation.ValidateEmployee | src/utils/validation.ts:24-51 | `isValid` exactly when there are no errors, exactly when no field is blank; each of name, phone, birthday, role has an error iff it is blank; at most four errors, label-prefixed, in form order |
| Validation.ThreeBlankFields | src/pages/EmployeeEdit/EmployeeEdit.test.tsx:105-127 | a form with only the role filled reports name, phone and birthday, in that order, with their labels |
| Validation.WhitespaceIsMissing | src/utils/validation.ts:15 | a value of spaces and a tab counts as missing |
| PhoneMask.WithCountryCode | src/pages/EmployeeEdit/EmployeeEdit.tsx:66-75 | the number starts with 7 followed by the digits without a leading 7 or 8, and stays all digits |
| PhoneMask.PhoneDigits | src/pages/EmployeeEdit/EmployeeEdit.tsx:62-77 | the masked digits are empty iff the input has none; otherwise they start with 7, are all digits, number at most 11, and continue with the input's digits after a dropped leading 7 or 8 |
| PhoneMask.Mask | src/pages/EmployeeEdit/EmployeeEdit.tsx:79-100 | the mask is 2 to 17 characters long and starts with `+` and the country digit |
| PhoneMask.GroupDigits | src/pages/EmployeeEdit/EmployeeEdit.tsx:81-98 | each group of the mask carries exactly its slice of the digits |
| PhoneMask.MaskDigits | src/pages/EmployeeEdit/EmployeeEdit.tsx:79-100 | reading the digits back out of a mask gives the digits laid out |
| PhoneMask.FormatPhoneNumber | src/pages/EmployeeEdit/EmployeeEdit.tsx:61-101 | the result is empty exactly when the input has no digit; otherwise it starts with `+7`; it is at most 17 characters; its digits are the normalised digits of the input |
| PhoneMask.FormatIdempotent | src/pages/EmployeeEdit/EmployeeEdit.tsx:61-101 | formatting a formatted number returns it unchanged |
| PhoneMask.FormatTenDigits | src/pages/EmployeeEdit/EmployeeEdit.test.tsx:227-230 | `9991234567` is shown as `+7 (999) 123-4567` |
| PhoneMask.FormatTrunkPrefix | src/pages/EmployeeEdit/EmployeeEdit.tsx:68-70 | `89991234567` is shown as `+7 (999) 123-4567` |
| PhoneMask.FormatPartial | src/pages/EmployeeEdit/EmployeeEdit.test.tsx:232-233 | `8999` is shown as `+7 (999)`, and the empty input stays empty |
| PhoneMask.FindDigitIndex | src/pages/EmployeeEdit/EmployeeEdit.tsx:169 | `findIndex` gives the first digit position, or -1 exactly when there is no digit |
| PhoneMask.LastDigitBefore | src/pages/EmployeeEdit/EmployeeEdit.tsx:165-172 | the reversed search finds the last digit before the cursor, and gives -1 exactly when there is none |
| PhoneMask.DeleteDigitBeforeCursor | src/pages/EmployeeEdit/EmployeeEdit.tsx:163-182 | the default is always prevented; the phone stays as it is exactly when no digit precedes the cursor; otherwise the phone becomes the mask of the value without the last digit before the cursor |
| PhoneMask.PhoneKeyDown | src/pages/EmployeeEdit/EmployeeEdit.tsx:157-184 | the browser handles the key unless it is Backspace with a cursor past the start and a non-digit just before it; then the handler deletes the last digit before the cursor and re-masks, or does nothing when no digit precedes |
| PhoneMask.RemovingADigit | src/pages/EmployeeEdit/EmployeeEdit.tsx:173-175 | cutting one digit out of the value removes exactly that digit from its digit string |
| PhoneMask.BackspaceDropsOneDigit | src/pages/EmployeeEdit/EmployeeEdit.tsx:171-180 | when Backspace sets the phone, it is the mask of the value with one digit fewer |
| PhoneMask.BackspaceExample | src/pages/EmployeeEdit/EmployeeEdit.tsx:157-184 | Backspace after `+7 (999) ` (caret 9, past the space) in `+7 (999) 123` deletes the third area digit and gives `+7 (991) 23` |
| EmployeeEdit.HandleSubmit | src/pages/EmployeeEdit/EmployeeEdit.tsx:136-155 | an action is dispatched exactly when no field is blank, exactly when no errors are shown; the errors are per field; an edit dispatches `updateEmployee` with the form, a new record dispatches `addEmployee` stamped with the clock |
| EmployeeEdit.SubmitOfEdit | src/pages/EmployeeEdit/EmployeeEdit.tsx:143-145 | a complete form on an existing record's route dispatches `updateEmployee` with the form's record as it is |
| EmployeeEdit.SubmitOfNewRecord | src/pages/EmployeeEdit/EmployeeEdit.tsx:146-151 | for any route id that is not an edit, a complete form dispatches `addEmployee` with the record stamped with the clock as its id |
| EmployeeEdit.NewRouteIsCreation | src/pages/EmployeeEdit/EmployeeEdit.tsx:24 | the route id `'new'` (what the page's tests mock for creation; the app's static `employees/new` route gives no id) is not an edit, so a complete form under it dispatches `addEmployee` stamped with the clock |
| EmployeeEdit.IncompleteSubmitChangesNothing | src/pages/EmployeeEdit/EmployeeEdit.tsx:140-143 | a form with a blank field leaves the store unchanged |
| EmployeeEdit.NewRecordGetsNextId | src/pages/EmployeeEdit/EmployeeEdit.tsx:147-151 | for any route id that is not an edit (in the app, no id; in the tests, `'new'`), a new record is appended under one above the largest id: the reducer overwrites the page's timestamp id |
| EmployeeEdit.AppendedUnderNextId | src/store/slices/employeesSlice.ts:64-66 | `addEmployee` appends the payload under `Math.max(ids) + 1` |
| EmployeeEdit.EditKeepsRoster | src/pages/EmployeeEdit/EmployeeEdit.tsx:144-145 | submitting an edit never changes the number of records and keeps ids unique |
| EmployeeEdit.MaskedPhoneBlankIffNoDigit | src/pages/EmployeeEdit/EmployeeEdit.tsx:118-119 | the masked phone is blank, and so gets the required-field error, exactly when nothing typed contained a digit |
| SliceExamples.RoleFilterExample | src/store/slices/employeesSlice.test.ts:63-70 | filtering by `driver` leaves only Иван Иванов and keeps the list |
| SliceExamples.ArchiveFilterExample | src/store/slices/employeesSlice.test.ts:72-79 | the archived-only flag leaves only Мария Петрова |
| SliceExamples.NameDescendingExample | src/store/slices/employeesSlice.test.ts:81-88 | name descending puts Мария Петрова before Иван Иванов |
| SliceExamples.BirthdayAscendingExample | src/store/slices/employeesSlice.test.ts:90-97 | birthday ascending puts the 1985 birthday before the 1990 one |
| SliceExamples.TestBirthdays | src/store/slices/employeesSlice.test.ts:25-33 | the test records' `DD.MM.YYYY` birthdays read as 1990-01-01 and 1985-05-15 |
| SliceExamples.AddExample | src/store/slices/employeesSlice.test.ts:99-114 | adding to ids 1 and 2 gives three records, the new one with id 3 |
| SliceExamples.UpdateExample | src/store/slices/employeesSlice.test.ts:116-133 | updating id 1 replaces the first record and keeps the second |
| SliceExamples.FilterDropsSortOrder | src/store/slices/employeesSlice.ts:50 | after a name-descending sort, a `setFilter` leaves the view out of descending order while the criteria still say descending |
| SliceExamples.SortedFilterKeepsOrder | src/store/slices/employeesSlice.ts:50 | the corrected `setFilter` keeps the descending order in the same scenario |

## Left out

- Persistence: `saveEmployeesToStorage` after `addEmployee` and `updateEmployee`, and the start-up read through `loadEmployeesFromStorage`, are I/O. The state model starts from whatever list was loaded.
- `addEmployee` on an empty list: the source computes `Math.max()` of nothing, which is `-Infinity`, so the new id is `-Infinity + 1`, which is `-Infinity`, not a valid id. `EmployeesSlice.AddEmployee` requires a non-empty list. An empty list does not give id 1 in the code.
- Text.LocaleCompare, Sorting.Compare: `localeCompare` is taken to be code-point order. ICU collation, accents and case folding are not modelled.
- Dates.ParseIsoDate: reads only canonical `YYYY-MM-DD` strings of real calendar dates. V8 also accepts days up to 31 in any month and rolls them over (`1990-02-30` is 2 March), and the model reads those as invalid.
- Sorting.Compare: `new Date` is modelled for `YYYY-MM-DD` strings only. Other strings, including out-of-range days that some engines roll over, read as an invalid date, and the comparator then returns 0.
- StableSort.SortBy: stability of `Array.prototype.sort` is not proved. Contracts state order up to equal keys, plus the permutation.
- Roster.Employee: `id` is an unbounded integer. In JavaScript it is a double, so `Math.max(...ids) + 1` (employeesSlice.ts:64) is exact and fresh only below 2^53 (`Number.MAX_SAFE_INTEGER`); `EmployeesSlice.AddKeepsIdsUnique` relies on the unbounded width.
- Roster.Employee: `role` is a string. The role enumeration lives in `data/employees.ts`, which is not part of this model.
- The edit page's rendering, routing and navigation are not modelled. This covers the `useEffect` that loads the record being edited, `getFieldError` and `hasFieldError`, the checkbox branch of `handleChange`, and the re-validation while typing after a submit.
- EmployeeEdit.HandleSubmit: `Date.now()` is a parameter, and `navigate('/employees')` is not modelled.
- PhoneMask.PhoneKeyDown: the caret position is `selectionStart` (`None` for `null`). The browser's own Backspace editing, taken when the handler does not act, is not modelled.
- PhoneMask.PhoneKeyDown: the caret and the phone string are indexed by character (Unicode scalar), not by UTF-16 code unit as `selectionStart` and `value[k]` are; the two differ only on a value holding a character outside the Basic Multilingual Plane.
- The mask closes the area parenthesis as soon as one area digit is present (`+7 (9)`, EmployeeEdit.tsx:85-88), rather than showing `+7 (9` while the group fills; the model follows the code.
- Birthdays are stored in two forms, `DD.MM.YYYY` in the seed data and `YYYY-MM-DD` from the editor. In the code both forms read as the same date (`Dates.BirthdayKeyOfBothForms`), so the model keeps both.

## Findings

| source | as written | input that shows it | evidently intended | confidence | as-written member | corrected member |
|---|---|---|---|---|---|---|
| src/store/slices/employeesSlice.ts:50 | `setFilter` sets the view to `applyFilters(list, filter)` and does not sort it, while `addEmployee` and `updateEmployee` both sort after filtering | records Иван Иванов and Мария Петрова; `setSort({field:'name', direction:'desc'})`, then `setFilter({})`: the view goes back to Иван first while the criteria still say name descending | the view re-derived as `applySorting(applyFilters(list, filter), sort)`, as `addEmployee` and `updateEmployee` do at employeesSlice.ts:67-68 and :77-78 | medium, not executed | SliceExamples.FilterDropsSortOrder | EmployeesSlice.SetFilterSorted |

The reducer `EmployeesSlice.Reduce` keeps the code's `setFilter` so that it matches the code. `EmployeesSlice.SetFilterSortedIsFilterThenSort` shows the corrected reducer is the written one followed by a `setSort` with an empty payload.

=== FILE: common.dfy ===
/** Shared vocabulary: an optional value and the order-preserving subsequence relation. */
module Common {

  /** A value that may be missing: `null`/`undefined` on the JavaScript side. */
  datatype Option<+T> = None | Some(value: T)

  function Min(a: int, b: int): int
  {
    if a <= b then a else b
  }

  /** `a` is obtained from `b` by deleting elements and keeping the order of the rest. */
  ghost predicate SubsequenceOf<T>(a: seq<T>, b: seq<T>)
    decreases |b|
  {
    |a| == 0 ||
    (|b| > 0 && ((a[0] == b[0] && SubsequenceOf(a[1..], b[1..])) || SubsequenceOf(a, b[1..])))
  }
}

=== FILE: dates.dfy ===
/**
 * Birthdays as the list's sort comparator reads them: the stored text is split
 * on '.', the pieces reversed and joined with '-' (so `DD.MM.YYYY` becomes
 * `YYYY-MM-DD` and a value already in `YYYY-MM-DD` form passes through), and
 * the result is read as a date-only ISO string, i.e. midnight UTC of that day.
 */
module Dates {
  import opened Common
  import opened Text

  datatype Date = Date(year: int, month: int, day: int)

  predicate IsLeapYear(y: int)
  {
    y % 4 == 0 && (y % 100 != 0 || y % 400 == 0)
  }

  function DaysInMonth(y: int, m: int): int
  {
    if m == 2 then (if IsLeapYear(y) then 29 else 28)
    else if m == 4 || m == 6 || m == 9 || m == 11 then 30
    else 31
  }

  function YearLength(y: int): int
  {
    if IsLeapYear(y) then 366 else 365
  }

  /** A day of the proleptic Gregorian calendar whose year has four digits. */
  predicate IsCalendarDate(d: Date)
  {
    0 <= d.year <= 9999 && 1 <= d.month <= 12 && 1 <= d.day <= DaysInMonth(d.year, d.month)
  }

  /** Calendar order: by year, then month, then day. */
  predicate DateBefore(a: Date, b: Date)
  {
    a.year < b.year ||
    (a.year == b.year && (a.month < b.month || (a.month == b.month && a.day < b.day)))
  }

  // ---------------------------------------------------------------------------
  // Fixed-width decimal fields

  function DigitValue(c: char): nat
    requires IsDigit(c)
  {
    (c as int) - ('0' as int)
  }

  function DigitChar(n: nat): (c: char)
    requires n < 10
    ensures IsDigit(c) && DigitValue(c) == n
  {
    (('0' as int) + n) as char
  }

  /** The value of a string of decimal digits, most significant first. */
  function ParseNat(s: string): nat
    requires AllDigits(s)
  {
    if |s| == 0 then 0 else 10 * ParseNat(s[..|s| - 1]) + DigitValue(s[|s| - 1])
  }

  function Pow10(w: nat): nat
  {
    if w == 0 then 1 else 10 * Pow10(w - 1)
  }

  /** `n` written with exactly `width` digits, zero-padded on the left. */
  function PadDigits(n: nat, width: nat): (s: string)
    ensures |s| == width && AllDigits(s)
  {
    if width == 0 then "" else PadDigits(n / 10, width - 1) + [DigitChar(n % 10)]
  }

  lemma {:induction false} ParsePadded(n: nat, width: nat)
    requires n < Pow10(width)
    ensures ParseNat(PadDigits(n, width)) == n
  {
    if width > 0 {
      assert n / 10 < Pow10(width - 1);
      ParsePadded(n / 10, width - 1);
      var s := PadDigits(n, width);
      assert s[..|s| - 1] == PadDigits(n / 10, width - 1);
    }
  }

  lemma {:induction false} PadParsed(s: string)
    requires AllDigits(s)
    ensures PadDigits(ParseNat(s), |s|) == s
  {
    if |s| > 0 {
      var init := s[..|s| - 1];
      PadParsed(init);
      var n := ParseNat(s);
      assert n / 10 == ParseNat(init);
      assert n % 10 == DigitValue(s[|s| - 1]);
      assert DigitChar(n % 10) == s[|s| - 1];
      assert s == init + [s[|s| - 1]];
    }
  }

  // ---------------------------------------------------------------------------
  // Text forms

  /** `new Date(s)` for a date-only ISO string `YYYY-MM-DD`; anything else is an invalid date. */
  function ParseIsoDate(s: string): (r: Option<Date>)
    ensures r.Some? ==> IsCalendarDate(r.value)
  {
    if |s| == 10 && s[4] == '-' && s[7] == '-' &&
       AllDigits(s[..4]) && AllDigits(s[5..7]) && AllDigits(s[8..])
    then
      var d := Date(ParseNat(s[..4]), ParseNat(s[5..7]), ParseNat(s[8..]));
      if IsCalendarDate(d) then Some(d) else None
    else None
  }

  function FormatIso(d: Date): string
    requires IsCalendarDate(d)
  {
    PadDigits(d.year, 4) + "-" + PadDigits(d.month, 2) + "-" + PadDigits(d.day, 2)
  }

  /** The `DD.MM.YYYY` form of the seed data. */
  function FormatDotted(d: Date): string
    requires IsCalendarDate(d)
  {
    PadDigits(d.day, 2) + "." + PadDigits(d.month, 2) + "." + PadDigits(d.year, 4)
  }

  /** Every calendar date is read back from its ISO form. */
  lemma IsoRoundTrip(d: Date)
    requires IsCalendarDate(d)
    ensures ParseIsoDate(FormatIso(d)) == Some(d)
  {
    var s := FormatIso(d);
    assert s[..4] == PadDigits(d.year, 4);
    assert s[5..7] == PadDigits(d.month, 2);
    assert s[8..] == PadDigits(d.day, 2);
    assert Pow10(2) == 100 && Pow10(4) == 10000;
    ParsePadded(d.year, 4);
    ParsePadded(d.month, 2);
    ParsePadded(d.day, 2);
  }

  /** A string the parser accepts is exactly the ISO form of the date it yields. */
  lemma IsoParseCanonical(s: string)
    requires ParseIsoDate(s).Some?
    ensures FormatIso(ParseIsoDate(s).value) == s
  {
    PadParsed(s[..4]);
    PadParsed(s[5..7]);
    PadParsed(s[8..]);
    assert s == s[..4] + "-" + s[5..7] + "-" + s[8..];
  }

  /** `s.split('.').reverse().join('-')` */
  function ToIsoForm(s: string): (r: string)
    ensures '.' !in r
  {
    var parts := Reverse(Split(s, '.'));
    JoinKeepsOut(parts, '-', '.');
    Join(parts, '-')
  }

  /** A value with no '.' (in particular one already in ISO form) is left unchanged. */
  lemma IsoFormWithoutDots(s: string)
    requires '.' !in s
    ensures ToIsoForm(s) == s
  {
    SplitWithoutSeparator(s, '.');
    assert Reverse([s]) == [s];
  }

  lemma DottedToIso(d: Date)
    requires IsCalendarDate(d)
    ensures ToIsoForm(FormatDotted(d)) == FormatIso(d)
  {
    var dd, mm, yyyy := PadDigits(d.day, 2), PadDigits(d.month, 2), PadDigits(d.year, 4);
    assert '.' !in dd && '.' !in mm && '.' !in yyyy;
    SplitThreeFields(dd, mm, yyyy);
    JoinThreeFields(yyyy, mm, dd);
    assert Reverse([dd, mm, yyyy]) == [yyyy, mm, dd];
  }

  lemma SplitThreeFields(a: string, b: string, c: string)
    requires '.' !in a && '.' !in b && '.' !in c
    ensures Split(a + "." + b + "." + c, '.') == [a, b, c]
  {
    assert a + "." + b + "." + c == a + ['.'] + (b + ['.'] + c);
    SplitAtFirstSeparator(a, '.', b + ['.'] + c);
    SplitAtFirstSeparator(b, '.', c);
    SplitWithoutSeparator(c, '.');
  }

  lemma JoinThreeFields(a: string, b: string, c: string)
    ensures Join([a, b, c], '-') == a + "-" + b + "-" + c
  {
    assert [a, b, c][1..] == [b, c] && [b, c][1..] == [c];
    assert Join([b, c], '-') == b + ['-'] + c;
  }

  /** The date the sort comparator reads from a stored birthday; `None` is an invalid date. */
  function BirthdayKey(birthday: string): (r: Option<Date>)
    ensures r.Some? ==> IsCalendarDate(r.value)
  {
    ParseIsoDate(ToIsoForm(birthday))
  }

  /** Both stored forms of a calendar date are read as that date. */
  lemma BirthdayKeyOfBothForms(d: Date)
    requires IsCalendarDate(d)
    ensures BirthdayKey(FormatDotted(d)) == Some(d)
    ensures BirthdayKey(FormatIso(d)) == Some(d)
  {
    DottedToIso(d);
    IsoRoundTrip(d);
    assert '.' !in FormatIso(d) by {
      assert FormatIso(d) == PadDigits(d.year, 4) + "-" + PadDigits(d.month, 2) + "-" + PadDigits(d.day, 2);
    }
    IsoFormWithoutDots(FormatIso(d));
  }

  // ---------------------------------------------------------------------------
  // Time values

  function DaysBeforeYear(y: nat): nat
  {
    if y == 0 then 0 else DaysBeforeYear(y - 1) + YearLength(y - 1)
  }

  function DaysBeforeMonth(y: int, m: int): nat
    requires 1 <= m <= 12
  {
    if m == 1 then 0 else DaysBeforeMonth(y, m - 1) + DaysInMonth(y, m - 1)
  }

  /** Days from 0000-01-01 to `d`. */
  function DayNumber(d: Date): int
    requires IsCalendarDate(d)
  {
    DaysBeforeYear(d.year) + DaysBeforeMonth(d.year, d.month) + d.day - 1
  }

  const MsPerDay: int := 86400000
  const UnixEpoch: Date := Date(1970, 1, 1)

  /** `getTime()` of midnight UTC on `d`: milliseconds since 1970-01-01. */
  function TimeValue(d: Date): int
    requires IsCalendarDate(d)
  {
    (DayNumber(d) - DayNumber(UnixEpoch)) * MsPerDay
  }

  lemma YearIsTwelveMonths(y: int)
    ensures DaysBeforeMonth(y, 12) + DaysInMonth(y, 12) == YearLength(y)
  {
    assert DaysBeforeMonth(y, 2) == 31;
    assert DaysBeforeMonth(y, 3) == DaysBeforeMonth(y, 2) + DaysInMonth(y, 2);
    assert DaysBeforeMonth(y, 4) == DaysBeforeMonth(y, 3) + 31;
    assert DaysBeforeMonth(y, 5) == DaysBeforeMonth(y, 4) + 30;
    assert DaysBeforeMonth(y, 6) == DaysBeforeMonth(y, 5) + 31;
    assert DaysBeforeMonth(y, 7) == DaysBeforeMonth(y, 6) + 30;
    assert DaysBeforeMonth(y, 8) == DaysBeforeMonth(y, 7) + 31;
    assert DaysBeforeMonth(y, 9) == DaysBeforeMonth(y, 8) + 31;
    assert DaysBeforeMonth(y, 10) == DaysBeforeMonth(y, 9) + 30;
    assert DaysBeforeMonth(y, 11) == DaysBeforeMonth(y, 10) + 31;
    assert DaysBeforeMonth(y, 12) == DaysBeforeMonth(y, 11) + 30;
  }

  lemma {:induction false} LaterMonthStartsLater(y: int, m: int, m': int)
    requires 1 <= m < m' <= 12
    ensures DaysBeforeMonth(y, m) + DaysInMonth(y, m) <= DaysBeforeMonth(y, m')
  {
    if m' > m + 1 {
      LaterMonthStartsLater(y, m, m' - 1);
    }
  }

  lemma {:induction false} LaterYearStartsLater(y: nat, y': nat)
    requires y < y'
    ensures DaysBeforeYear(y) + YearLength(y) <= DaysBeforeYear(y')
  {
    if y' > y + 1 {
      LaterYearStartsLater(y, y' - 1);
    }
  }

  lemma DayFitsInYear(d: Date)
    requires IsCalendarDate(d)
    ensures DaysBeforeMonth(d.year, d.month) + d.day <= YearLength(d.year)
  {
    YearIsTwelveMonths(d.year);
    if d.month < 12 {
      LaterMonthStartsLater(d.year, d.month, 12);
    }
  }

  /** Time values follow calendar order, in both directions. */
  lemma TimeValueOrder(a: Date, b: Date)
    requires IsCalendarDate(a) && IsCalendarDate(b)
    ensures TimeValue(a) < TimeValue(b) <==> DateBefore(a, b)
    ensures TimeValue(a) == TimeValue(b) <==> a == b
  {
    if DateBefore(a, b) {
      EarlierDayNumber(a, b);
    } else if DateBefore(b, a) {
      EarlierDayNumber(b, a);
    }
  }

  lemma EarlierDayNumber(a: Date, b: Date)
    requires IsCalendarDate(a) && IsCalendarDate(b) && DateBefore(a, b)
    ensures DayNumber(a) < DayNumber(b)
  {
    if a.year < b.year {
      DayFitsInYear(a);
      LaterYearStartsLater(a.year, b.year);
    } else if a.month < b.month {
      LaterMonthStartsLater(a.year, a.month, b.month);
    }
  }
}

=== FILE: employee_edit.dfy ===
/**
 * The record editor's submit decision: validate the form, and only when it is
 * valid dispatch `updateEmployee` (editing an existing record) or
 * `addEmployee` (creating one, stamped with the current time as its id).
 * The clock is a parameter; navigation and the rendered form are not modelled.
 */
module EmployeeEdit {
  import opened Common
  import opened Text
  import opened Roster
  import opened Validation
  import opened PhoneMask
  import opened EmployeesSlice

  /** `id !== undefined && id !== 'new'` on the route parameter. */
  predicate IsEditing(routeId: Option<string>)
  {
    routeId.Some? && routeId.value != "new"
  }

  /** The four fields of a record that the form validates. */
  function FormOf(e: Employee): EmployeeForm
  {
    EmployeeForm(e.name, e.phone, e.birthday, e.role)
  }

  /** A record whose four text fields are all filled in. */
  predicate Complete(e: Employee)
  {
    !IsBlank(e.name) && !IsBlank(e.phone) && !IsBlank(e.birthday) && !IsBlank(e.role)
  }

  /** What a submit does: the errors it shows, and the action it dispatches, if any. */
  datatype SubmitOutcome = SubmitOutcome(errors: seq<ValidationError>, action: Option<Action>)

  /** `handleSubmit`, with `Date.now()` passed in as `now`. */
  function HandleSubmit(routeId: Option<string>, employee: Employee, now: int): (r: SubmitOutcome)
    ensures r.action.Some? <==> Complete(employee)
    ensures r.action.None? <==> |r.errors| > 0
    ensures forall field :: field in ["name", "phone", "birthday", "role"] ==>
      (HasError(r.errors, field) <==> IsBlank(FieldValue(employee, field)))
    ensures r.action.Some? && IsEditing(routeId) ==> r.action.value == UpdateEmployeeAction(employee)
    ensures r.action.Some? && !IsEditing(routeId) ==> r.action.value == AddEmployeeAction(employee.(id := now))
  {
    var result := ValidateEmployee(FormOf(employee));
    var action :=
      if !result.isValid then None
      else if IsEditing(routeId) then Some(UpdateEmployeeAction(employee))
      else Some(AddEmployeeAction(employee.(id := now)));
    SubmitOutcome(result.errors, action)
  }

  /** The value a form field key names. */
  function FieldValue(e: Employee, field: string): string
  {
    if field == "name" then e.name
    else if field == "phone" then e.phone
    else if field == "birthday" then e.birthday
    else e.role
  }

  /** The store after the submit: unchanged unless an action was dispatched. */
  function Dispatch(s: EmployeesState, outcome: SubmitOutcome): (r: EmployeesState)
    requires outcome.action.Some? ==> Enabled(s, outcome.action.value)
  {
    if outcome.action.Some? then Reduce(s, outcome.action.value) else s
  }

  /** An incomplete form leaves the store as it was. */
  lemma IncompleteSubmitChangesNothing(s: EmployeesState, routeId: Option<string>, employee: Employee, now: int)
    requires !Complete(employee)
    ensures Dispatch(s, HandleSubmit(routeId, employee, now)) == s
  {
  }

  /**
   * Creating a record: the store appends the form's record under the next id
   * after the largest one; the timestamp the page stamps on it never reaches
   * the store.
   */
  lemma NewRecordGetsNextId(s: EmployeesState, routeId: Option<string>, employee: Employee, now: int)
    requires !IsEditing(routeId) && |s.list| > 0 && Complete(employee)
    ensures Dispatch(s, HandleSubmit(routeId, employee, now)).list == s.list + [employee.(id := MaxId(s.list) + 1)]
  {
    var outcome := HandleSubmit(routeId, employee, now);
    SubmitOfNewRecord(routeId, employee, now);
    assert Dispatch(s, outcome) == AddEmployee(s, employee.(id := now));
    AppendedUnderNextId(s, employee.(id := now));
  }

  /**
   * A complete form on a non-edit route dispatches `addEmployee` with the timestamp
   * as id (the app's static `employees/new` route gives no id, `None`; the page's
   * tests mock the id as `'new'`).
   */
  lemma SubmitOfNewRecord(routeId: Option<string>, employee: Employee, now: int)
    requires !IsEditing(routeId) && Complete(employee)
    ensures HandleSubmit(routeId, employee, now).action == Some(AddEmployeeAction(employee.(id := now)))
  {
  }

  /** The route id `'new'`, which the page's tests mock for creation, is not an edit. */
  lemma NewRouteIsCreation(employee: Employee, now: int)
    requires Complete(employee)
    ensures !IsEditing(Some("new"))
    ensures HandleSubmit(Some("new"), employee, now).action == Some(AddEmployeeAction(employee.(id := now)))
  {
    SubmitOfNewRecord(Some("new"), employee, now);
  }

  /** `addEmployee` appends the payload under the id one above the largest. */
  lemma AppendedUnderNextId(s: EmployeesState, payload: Employee)
    requires |s.list| > 0
    ensures AddEmployee(s, payload).list == s.list + [payload.(id := MaxId(s.list) + 1)]
  {
    AppendShape(s.list, AddEmployee(s, payload).list, payload);
  }

  /** A one-longer list that extends `list` with the payload under a fresh, next id is the append under `max + 1`. */
  lemma AppendShape(list: seq<Employee>, r: seq<Employee>, payload: Employee)
    requires |list| > 0 && |r| == |list| + 1 && r[..|list|] == list
    requires r[|list|] == payload.(id := r[|list|].id)
    requires forall i :: 0 <= i < |list| ==> list[i].id < r[|list|].id
    requires exists i :: 0 <= i < |list| && list[i].id + 1 == r[|list|].id
    ensures r == list + [payload.(id := MaxId(list) + 1)]
  {
    LastIsNextRecord(list, r[|list|], payload);
    AppendedLast(list, r);
  }

  /** The payload under an id above every id of the list and one above some id is the payload under `max + 1`. */
  lemma LastIsNextRecord(list: seq<Employee>, n: Employee, payload: Employee)
    requires |list| > 0 && n == payload.(id := n.id)
    requires forall i :: 0 <= i < |list| ==> list[i].id < n.id
    requires exists i :: 0 <= i < |list| && list[i].id + 1 == n.id
    ensures n == payload.(id := MaxId(list) + 1)
  {
    NextIdFromBounds(list, n.id);
  }

  /** A list one longer than `list` that starts with it is `list` plus its last element. */
  lemma AppendedLast<T>(list: seq<T>, r: seq<T>)
    requires |r| == |list| + 1 && r[..|list|] == list
    ensures r == list + [r[|list|]]
  {
    assert r == r[..|list|] + [r[|list|]];
  }

  /** An id above every id of the list and one above some id is one above the largest. */
  lemma NextIdFromBounds(list: seq<Employee>, next: int)
    requires |list| > 0
    requires forall i :: 0 <= i < |list| ==> list[i].id < next
    requires exists i :: 0 <= i < |list| && list[i].id + 1 == next
    ensures next == MaxId(list) + 1
  {
    var j :| 0 <= j < |list| && list[j].id == MaxId(list);
    var i :| 0 <= i < |list| && list[i].id + 1 == next;
    assert list[i].id <= MaxId(list);
  }

  /** Editing a record with unique ids keeps the number of records and the ids unique. */
  lemma EditKeepsRoster(s: EmployeesState, routeId: Option<string>, employee: Employee, now: int)
    requires IsEditing(routeId) && UniqueIds(s.list)
    ensures |Dispatch(s, HandleSubmit(routeId, employee, now)).list| == |s.list|
    ensures UniqueIds(Dispatch(s, HandleSubmit(routeId, employee, now)).list)
  {
    var outcome := HandleSubmit(routeId, employee, now);
    if Complete(employee) {
      SubmitOfEdit(routeId, employee, now);
      assert Dispatch(s, outcome) == UpdateEmployee(s, employee);
      UpdateKeepsIdsUnique(s, employee);
    } else {
      assert Dispatch(s, outcome) == s;
    }
  }

  /** A complete form on an existing record's route dispatches `updateEmployee` with the form's record. */
  lemma SubmitOfEdit(routeId: Option<string>, employee: Employee, now: int)
    requires IsEditing(routeId) && Complete(employee)
    ensures HandleSubmit(routeId, employee, now).action == Some(UpdateEmployeeAction(employee))
  {
  }

  /**
   * The phone field always holds the masked text, so the "required" error for
   * the phone appears exactly when nothing typed into it contained a digit.
   */
  lemma MaskedPhoneBlankIffNoDigit(typed: string)
    ensures IsBlank(FormatPhoneNumber(typed)) <==> forall i :: 0 <= i < |typed| ==> !IsDigit(typed[i])
  {
    var r := FormatPhoneNumber(typed);
    if r != "" {
      assert r[0] == r[..2][0] == '+';
      assert !IsWhitespace(r[0]);
    }
  }
}

=== FILE: employees_slice.dfy ===
/**
 * The `employees` slice: the canonical `list`, the derived `filteredList`, and
 * the filter and sort criteria, with the four reducers as pure state-to-state
 * functions. Persisting `list` after `addEmployee`/`updateEmployee` is not
 * modelled (it has no effect on the state).
 */
module EmployeesSlice {
  import opened Common
  import opened Roster
  import opened Filtering
  import opened Sorting

  datatype EmployeesState = EmployeesState(
    list: seq<Employee>,
    filteredList: seq<Employee>,
    filter: FilterCriteria,
    sort: SortCriteria)

  const DefaultFilter: FilterCriteria := FilterCriteria(None, false)
  const DefaultSort: SortCriteria := SortCriteria(Name, Asc)

  /**
   * The state at start-up for the list read from storage (or the seed data).
   * The view is the list itself: the default filter keeps everything, and the
   * default name order is not applied until a reducer sorts.
   */
  function InitialState(employees: seq<Employee>): (s: EmployeesState)
    ensures s.list == employees && s.filter == DefaultFilter && s.sort == DefaultSort
    ensures s.filteredList == ApplyFilters(s.list, s.filter)
  {
    UnrestrictedFilterIsIdentity(employees, DefaultFilter);
    EmployeesState(employees, employees, DefaultFilter, DefaultSort)
  }

  /** A `setFilter` payload: each field absent (`None`) or given; a given role may be `null`. */
  datatype FilterPatch = FilterPatch(role: Option<Option<string>>, isArchive: Option<bool>)

  /** A `setSort` payload: each field absent (`None`) or given. */
  datatype SortPatch = SortPatch(field: Option<SortField>, direction: Option<Direction>)

  /** `{ ...filter, ...payload }` */
  function MergeFilter(f: FilterCriteria, p: FilterPatch): (r: FilterCriteria)
    ensures p.role.Some? ==> r.role == p.role.value
    ensures p.role.None? ==> r.role == f.role
    ensures p.isArchive.Some? ==> r.isArchive == p.isArchive.value
    ensures p.isArchive.None? ==> r.isArchive == f.isArchive
  {
    FilterCriteria(
      if p.role.Some? then p.role.value else f.role,
      if p.isArchive.Some? then p.isArchive.value else f.isArchive)
  }

  /** `{ ...sort, ...payload }` */
  function MergeSort(s: SortCriteria, p: SortPatch): (r: SortCriteria)
    ensures p.field.Some? ==> r.field == p.field.value
    ensures p.field.None? ==> r.field == s.field
    ensures p.direction.Some? ==> r.direction == p.direction.value
    ensures p.direction.None? ==> r.direction == s.direction
  {
    SortCriteria(
      if p.field.Some? then p.field.value else s.field,
      if p.direction.Some? then p.direction.value else s.direction)
  }

  /**
   * The spread's laws: a payload applied twice is applied once, an empty payload
   * changes nothing, and a payload giving every field forgets the old criteria.
   */
  lemma MergeFilterLaws(f: FilterCriteria, g: FilterCriteria, p: FilterPatch)
    ensures MergeFilter(MergeFilter(f, p), p) == MergeFilter(f, p)
    ensures MergeFilter(f, FilterPatch(None, None)) == f
    ensures p.role.Some? && p.isArchive.Some? ==> MergeFilter(f, p) == MergeFilter(g, p)
  {
  }

  lemma MergeSortLaws(s: SortCriteria, t: SortCriteria, p: SortPatch)
    ensures MergeSort(MergeSort(s, p), p) == MergeSort(s, p)
    ensures MergeSort(s, SortPatch(None, None)) == s
    ensures p.field.Some? && p.direction.Some? ==> MergeSort(s, p) == MergeSort(t, p)
  {
  }

  /**
   * `setFilter`: merges the payload into the filter and re-derives the view
   * from `list`, in list order; the view is not re-sorted.
   */
  function SetFilter(s: EmployeesState, p: FilterPatch): (r: EmployeesState)
    ensures r.list == s.list && r.sort == s.sort
    ensures p.role.None? ==> r.filter.role == s.filter.role
    ensures p.role.Some? ==> r.filter.role == p.role.value
    ensures p.isArchive.None? ==> r.filter.isArchive == s.filter.isArchive
    ensures p.isArchive.Some? ==> r.filter.isArchive == p.isArchive.value
    ensures SubsequenceOf(r.filteredList, s.list)
    ensures forall e :: multiset(r.filteredList)[e] == if Keeps(r.filter, e) then multiset(s.list)[e] else 0
  {
    var filter := MergeFilter(s.filter, p);
    s.(filter := filter, filteredList := ApplyFilters(s.list, filter))
  }

  /**
   * `setFilter` corrected: the view re-derived as the sorted filtered list, as
   * `addEmployee` and `updateEmployee` do, so that it stays in the order the
   * sort criteria name.
   */
  function SetFilterSorted(s: EmployeesState, p: FilterPatch): (r: EmployeesState)
    ensures r.list == s.list && r.sort == s.sort && r.filter == MergeFilter(s.filter, p)
    ensures forall e :: multiset(r.filteredList)[e] == if Keeps(r.filter, e) then multiset(s.list)[e] else 0
    ensures Comparable(s.list, s.sort) ==> Sorted(r.filteredList, r.sort)
  {
    var filter := MergeFilter(s.filter, p);
    var view := DerivedView(s.list, filter, s.sort);
    FilteredStaysComparable(s.list, filter, s.sort);
    s.(filter := filter, filteredList := view)
  }

  /** Filtering keeps only records of the list, so their sort keys stay readable. */
  lemma FilteredStaysComparable(list: seq<Employee>, f: FilterCriteria, sort: SortCriteria)
    ensures Comparable(list, sort) ==> Comparable(ApplyFilters(list, f), sort)
  {
    var v := ApplyFilters(list, f);
    if Comparable(list, sort) {
      forall i | 0 <= i < |v| ensures HasSortKey(v[i], sort) {
        assert multiset(v)[v[i]] > 0;
        assert v[i] in multiset(list);
      }
    }
  }

  /** The corrected `setFilter` is the as-written one followed by a re-sort under unchanged criteria. */
  lemma SetFilterSortedIsFilterThenSort(s: EmployeesState, p: FilterPatch)
    ensures SetFilterSorted(s, p) == SetSort(SetFilter(s, p), SortPatch(None, None))
  {
  }

  /**
   * `setSort`: merges the payload into the sort criteria and re-sorts the
   * current view; records the filter dropped are not brought back.
   */
  function SetSort(s: EmployeesState, p: SortPatch): (r: EmployeesState)
    ensures r.list == s.list && r.filter == s.filter
    ensures p.field.None? ==> r.sort.field == s.sort.field
    ensures p.field.Some? ==> r.sort.field == p.field.value
    ensures p.direction.None? ==> r.sort.direction == s.sort.direction
    ensures p.direction.Some? ==> r.sort.direction == p.direction.value
    ensures multiset(r.filteredList) == multiset(s.filteredList)
    ensures Comparable(s.filteredList, r.sort) ==> Sorted(r.filteredList, r.sort)
  {
    var sort := MergeSort(s.sort, p);
    ApplySortingSorted(s.filteredList, sort);
    s.(sort := sort, filteredList := ApplySorting(s.filteredList, sort))
  }

  /** `Math.max(...ids)` over a non-empty list. */
  function MaxId(list: seq<Employee>): (m: int)
    requires |list| > 0
    ensures forall i :: 0 <= i < |list| ==> list[i].id <= m
    ensures exists i :: 0 <= i < |list| && list[i].id == m
  {
    if |list| == 1 then list[0].id
    else
      var rest := MaxId(list[1..]);
      if list[0].id > rest then list[0].id else rest
  }

  /** The view every structural change leaves: the filtered list, sorted. */
  function DerivedView(list: seq<Employee>, filter: FilterCriteria, sort: SortCriteria): (v: seq<Employee>)
    ensures multiset(v) == multiset(ApplyFilters(list, filter))
    ensures Comparable(ApplyFilters(list, filter), sort) ==> Sorted(v, sort)
  {
    ApplySortingSorted(ApplyFilters(list, filter), sort);
    ApplySorting(ApplyFilters(list, filter), sort)
  }

  /**
   * `addEmployee`: appends the payload under the id one above the largest id
   * in the list (any id the payload carries is overwritten) and re-derives the
   * sorted view.
   */
  function AddEmployee(s: EmployeesState, payload: Employee): (r: EmployeesState)
    requires |s.list| > 0
    ensures |r.list| == |s.list| + 1 && r.list[..|s.list|] == s.list
    ensures r.list[|s.list|] == payload.(id := r.list[|s.list|].id)
    ensures forall i :: 0 <= i < |s.list| ==> s.list[i].id < r.list[|s.list|].id
    ensures exists i :: 0 <= i < |s.list| && s.list[i].id + 1 == r.list[|s.list|].id
    ensures r.filter == s.filter && r.sort == s.sort
    ensures r.filteredList == DerivedView(r.list, r.filter, r.sort)
  {
    var newEmployee := payload.(id := MaxId(s.list) + 1);
    var list := s.list + [newEmployee];
    assert list[..|s.list|] == s.list;
    s.(list := list, filteredList := DerivedView(list, s.filter, s.sort))
  }

  /** `list.findIndex(emp => emp.id === id)`: the first position with that id, or -1. */
  function FindIndexById(list: seq<Employee>, id: int): (i: int)
    ensures -1 <= i < |list|
    ensures i >= 0 ==> list[i].id == id && forall j :: 0 <= j < i ==> list[j].id != id
    ensures i == -1 ==> forall j :: 0 <= j < |list| ==> list[j].id != id
  {
    if |list| == 0 then -1
    else if list[0].id == id then 0
    else
      var k := FindIndexById(list[1..], id);
      if k == -1 then -1 else k + 1
  }

  /**
   * `updateEmployee`: replaces the first record with the payload's id, in
   * place; with no such record the list stays as it was. The sorted view is
   * re-derived either way.
   */
  function UpdateEmployee(s: EmployeesState, payload: Employee): (r: EmployeesState)
    ensures |r.list| == |s.list|
    ensures (forall j :: 0 <= j < |s.list| ==> s.list[j].id != payload.id) ==> r.list == s.list
    ensures forall i :: 0 <= i < |s.list| && s.list[i].id == payload.id &&
                        (forall j :: 0 <= j < i ==> s.list[j].id != payload.id) ==>
                        r.list == s.list[i := payload]
    ensures r.filter == s.filter && r.sort == s.sort
    ensures r.filteredList == DerivedView(r.list, r.filter, r.sort)
  {
    FirstMatchIsFound(s.list, payload.id);
    var index := FindIndexById(s.list, payload.id);
    var list := if index != -1 then s.list[index := payload] else s.list;
    s.(list := list, filteredList := DerivedView(list, s.filter, s.sort))
  }

  /** The first position holding an id is the one `findIndex` reports. */
  lemma FirstMatchIsFound(list: seq<Employee>, id: int)
    ensures forall i :: 0 <= i < |list| && list[i].id == id && (forall j :: 0 <= j < i ==> list[j].id != id) ==>
                        FindIndexById(list, id) == i
  {
    var k := FindIndexById(list, id);
    forall i | 0 <= i < |list| && list[i].id == id && (forall j :: 0 <= j < i ==> list[j].id != id)
      ensures k == i
    {
      assert k != -1;
    }
  }

  /** The slice's actions, as the store dispatches them. */
  datatype Action =
    | SetFilterAction(filterPatch: FilterPatch)
    | SetSortAction(sortPatch: SortPatch)
    | AddEmployeeAction(draft: Employee)
    | UpdateEmployeeAction(record: Employee)

  /** `addEmployee` needs a record to take the largest id from. */
  predicate Enabled(s: EmployeesState, a: Action)
  {
    a.AddEmployeeAction? ==> |s.list| > 0
  }

  /** The slice reducer. */
  function Reduce(s: EmployeesState, a: Action): (r: EmployeesState)
    requires Enabled(s, a)
    ensures |r.list| >= |s.list|
  {
    match a
    case SetFilterAction(p) => SetFilter(s, p)
    case SetSortAction(p) => SetSort(s, p)
    case AddEmployeeAction(e) => AddEmployee(s, e)
    case UpdateEmployeeAction(e) => UpdateEmployee(s, e)
  }

  function Run(s: EmployeesState, actions: seq<Action>): EmployeesState
    requires |s.list| > 0
    decreases |actions|
  {
    if |actions| == 0 then s else Run(Reduce(s, actions[0]), actions[1..])
  }

  /**
   * What every reachable state keeps: ids are unique, and the view holds
   * exactly the records of `list` the filter keeps, whatever their order.
   */
  predicate Invariant(s: EmployeesState)
  {
    UniqueIds(s.list) && multiset(s.filteredList) == multiset(ApplyFilters(s.list, s.filter))
  }

  lemma InitialStateInvariant(employees: seq<Employee>)
    ensures Invariant(InitialState(employees)) <==> UniqueIds(employees)
  {
  }

  lemma AddKeepsIdsUnique(s: EmployeesState, payload: Employee)
    requires |s.list| > 0 && UniqueIds(s.list)
    ensures UniqueIds(AddEmployee(s, payload).list)
  {
    var list := AddEmployee(s, payload).list;
    assert list == s.list + [list[|s.list|]];
    AppendFreshId(s.list, list[|s.list|]);
  }

  /** A record whose id is above every id of the list can be appended without a clash. */
  lemma AppendFreshId(list: seq<Employee>, e: Employee)
    requires UniqueIds(list)
    requires forall i :: 0 <= i < |list| ==> list[i].id < e.id
    ensures UniqueIds(list + [e])
  {
    var r := list + [e];
    forall i, j | 0 <= i < |r| && 0 <= j < |r| && i != j
      ensures r[i].id != r[j].id
    {
      if i < |list| && j < |list| {
        assert r[i] == list[i] && r[j] == list[j];
      } else if i < |list| {
        assert r[i] == list[i];
      } else {
        assert r[j] == list[j];
      }
    }
  }

  lemma UpdateKeepsIdsUnique(s: EmployeesState, payload: Employee)
    requires UniqueIds(s.list)
    ensures UniqueIds(UpdateEmployee(s, payload).list)
  {
    var index := FindIndexById(s.list, payload.id);
    if index != -1 {
      var r := UpdateEmployee(s, payload);
      assert r.list == s.list[index := payload];
    }
  }

  /** With unique ids, `updateEmployee` replaces the one record carrying the payload's id. */
  lemma UpdateReplacesRecordWithId(s: EmployeesState, payload: Employee, i: int)
    requires UniqueIds(s.list) && 0 <= i < |s.list| && s.list[i].id == payload.id
    ensures UpdateEmployee(s, payload).list == s.list[i := payload]
  {
  }

  /** Every reducer keeps the invariant; in particular `setSort` never brings back a filtered-out record. */
  lemma ReducePreservesInvariant(s: EmployeesState, a: Action)
    requires Invariant(s) && Enabled(s, a)
    ensures Invariant(Reduce(s, a))
  {
    match a
    case SetFilterAction(p) =>
    case SetSortAction(p) =>
    case AddEmployeeAction(e) => AddKeepsIdsUnique(s, e);
    case UpdateEmployeeAction(e) => UpdateKeepsIdsUnique(s, e);
  }

  lemma {:induction false} RunPreservesInvariant(s: EmployeesState, actions: seq<Action>)
    requires Invariant(s) && |s.list| > 0
    ensures Invariant(Run(s, actions))
    decreases |actions|
  {
    if |actions| > 0 {
      ReducePreservesInvariant(s, actions[0]);
      RunPreservesInvariant(Reduce(s, actions[0]), actions[1..]);
    }
  }

  /** Applying the same `setFilter` payload twice gives the state once. */
  lemma SetFilterIdempotent(s: EmployeesState, p: FilterPatch)
    ensures SetFilter(SetFilter(s, p), p) == SetFilter(s, p)
  {
  }

  /** Applying the same `setSort` payload twice gives the state once, when every key is readable. */
  lemma SetSortIdempotent(s: EmployeesState, p: SortPatch)
    requires Comparable(s.filteredList, MergeSort(s.sort, p))
    ensures SetSort(SetSort(s, p), p) == SetSort(s, p)
  {
    var once := SetSort(s, p);
    SortedViewUnchanged(once.filteredList, once.sort);
  }
}

=== FILE: filtering.dfy ===
/** `applyFilters`: the role and archive filter of the employee view. */
module Filtering {
  import opened Common
  import opened Roster

  /** The filter has no role restriction: `!filter.role` holds for `null` and for `""`. */
  predicate NoRoleRestriction(f: FilterCriteria)
  {
    f.role.None? || f.role.value == ""
  }

  /**
   * Which records the filter keeps: those of the chosen role (or any role when
   * there is no restriction), and only archived ones when the archive flag is set.
   */
  predicate Keeps(f: FilterCriteria, e: Employee)
  {
    (NoRoleRestriction(f) || e.role == f.role.value) && (f.isArchive ==> e.isArchive)
  }

  /** `employees.filter(...)` with the predicate the slice passes, in list order. */
  function ApplyFilters(employees: seq<Employee>, f: FilterCriteria): (r: seq<Employee>)
    ensures SubsequenceOf(r, employees)
    ensures forall i :: 0 <= i < |r| ==> Keeps(f, r[i])
    ensures forall e :: multiset(r)[e] == if Keeps(f, e) then multiset(employees)[e] else 0
  {
    if |employees| == 0 then []
    else
      var emp := employees[0];
      var roleMatch := f.role.None? || f.role.value == "" || emp.role == f.role.value;
      var archiveMatch := !f.isArchive || emp.isArchive == f.isArchive;
      var rest := ApplyFilters(employees[1..], f);
      assert employees == [emp] + employees[1..];
      if roleMatch && archiveMatch then
        assert ([emp] + rest)[1..] == rest;
        [emp] + rest
      else
        rest
  }

  /** With the archive flag off, archived and active records both pass: there is no "active only" filter. */
  lemma ArchiveFlagOffKeepsBoth(f: FilterCriteria, e: Employee)
    requires !f.isArchive
    ensures Keeps(f, e) <==> Keeps(f, e.(isArchive := !e.isArchive))
  {
  }

  /** Archiving a record never makes a filter drop it. */
  lemma ArchivingNeverHides(f: FilterCriteria, e: Employee)
    requires Keeps(f, e)
    ensures Keeps(f, e.(isArchive := true))
  {
  }

  /** The default filter (no role, archive flag off) keeps the whole list in its order. */
  lemma {:induction false} UnrestrictedFilterIsIdentity(employees: seq<Employee>, f: FilterCriteria)
    requires NoRoleRestriction(f) && !f.isArchive
    ensures ApplyFilters(employees, f) == employees
  {
    if |employees| > 0 {
      UnrestrictedFilterIsIdentity(employees[1..], f);
      assert employees == [employees[0]] + employees[1..];
    }
  }

  /** Filtering twice with the same criteria changes nothing more. */
  lemma {:induction false} FilterIdempotent(employees: seq<Employee>, f: FilterCriteria)
    ensures ApplyFilters(ApplyFilters(employees, f), f) == ApplyFilters(employees, f)
  {
    if |employees| > 0 {
      FilterIdempotent(employees[1..], f);
      var rest := ApplyFilters(employees[1..], f);
      if Keeps(f, employees[0]) {
        var once := [employees[0]] + rest;
        assert ApplyFilters(employees, f) == once;
        assert once[0] == employees[0] && once[1..] == rest;
        assert ApplyFilters(once, f) == [employees[0]] + ApplyFilters(rest, f);
      } else {
        assert ApplyFilters(employees, f) == rest;
      }
    }
  }
}

=== FILE: phone_mask.dfy ===
/**
 * The phone field of the record editor: the `+7 (DDD) DDD-DDDD` mask applied on
 * every change, and the Backspace rule that deletes through mask punctuation.
 */
module PhoneMask {
  import opened Common
  import opened Text

  /** The leading-digit rule: a 7 stays, a leading 8 becomes 7, anything else gets a 7 in front. */
  function WithCountryCode(digits: string): (r: string)
    requires |digits| > 0
    ensures |r| >= 1 && r[0] == '7' && r[1..] == NationalPart(digits)
    ensures AllDigits(digits) ==> AllDigits(r)
  {
    if digits[0] == '7' then digits
    else if digits[0] == '8' then "7" + digits[1..]
    else "7" + digits
  }

  /** The digits after the country or trunk prefix: a leading 7 or 8 is dropped. */
  function NationalPart(digits: string): string
  {
    if |digits| > 0 && (digits[0] == '7' || digits[0] == '8') then digits[1..] else digits
  }

  /** The digits the mask shows: the input's digits with the country code fixed, cut to 11. */
  function PhoneDigits(value: string): (p: string)
    ensures p == "" <==> Digits(value) == ""
    ensures p != "" ==> p[0] == '7' && AllDigits(p)
    ensures p != "" ==> |p| == Min(11, 1 + |NationalPart(Digits(value))|)
    ensures p != "" ==> p[1..] == NationalPart(Digits(value))[..|p| - 1]
  {
    var digits := Digits(value);
    if digits == "" then ""
    else
      var d := WithCountryCode(digits);
      d[..Min(11, |d|)]
  }

  /** ` (DDD)`: digits 1 to 3, the closing parenthesis emitted as soon as one of them is there. */
  function AreaGroup(d: string): string
    requires |d| <= 11
  {
    if |d| > 1 then " (" + d[1..Min(4, |d|)] + ")" else ""
  }

  /** ` DDD`: digits 4 to 6. */
  function ExchangeGroup(d: string): string
    requires |d| <= 11
  {
    if |d| > 4 then " " + d[4..Min(7, |d|)] else ""
  }

  /** `-DDDD`: digits 7 to 10. */
  function LineGroup(d: string): string
    requires |d| <= 11
  {
    if |d| > 7 then "-" + d[7..Min(11, |d|)] else ""
  }

  /** Lays at most 11 digits out as `+D (DDD) DDD-DDDD`, each group once it has a digit. */
  function Mask(d: string): (r: string)
    requires 1 <= |d| <= 11
    ensures 2 <= |r| <= 17
    ensures r[..2] == "+" + d[..1]
  {
    "+" + d[..1] + AreaGroup(d) + ExchangeGroup(d) + LineGroup(d)
  }

  lemma DigitsOfGroup(pre: string, x: string, post: string)
    requires Digits(pre) == "" && Digits(post) == "" && AllDigits(x)
    ensures Digits(pre + x + post) == x
  {
    DigitsAppend(pre + x, post);
    DigitsAppend(pre, x);
    DigitsOfDigits(x);
  }

  lemma GroupDigits(d: string)
    requires 1 <= |d| <= 11 && AllDigits(d)
    ensures Digits("+" + d[..1]) == d[..1]
    ensures Digits(AreaGroup(d)) == d[1..Min(4, |d|)]
    ensures Digits(ExchangeGroup(d)) == d[Min(4, |d|)..Min(7, |d|)]
    ensures Digits(LineGroup(d)) == d[Min(7, |d|)..]
  {
    DigitsOfGroup("+", d[..1], "");
    assert "+" + d[..1] == "+" + d[..1] + "";
    AreaGroupDigits(d);
    ExchangeGroupDigits(d);
    LineGroupDigits(d);
  }

  lemma AreaGroupDigits(d: string)
    requires 1 <= |d| <= 11 && AllDigits(d)
    ensures Digits(AreaGroup(d)) == d[1..Min(4, |d|)]
  {
    if |d| > 1 {
      DigitsOfGroup(" (", d[1..Min(4, |d|)], ")");
    }
  }

  lemma ExchangeGroupDigits(d: string)
    requires 1 <= |d| <= 11 && AllDigits(d)
    ensures Digits(ExchangeGroup(d)) == d[Min(4, |d|)..Min(7, |d|)]
  {
    if |d| > 4 {
      DigitsOfGroup(" ", d[4..Min(7, |d|)], "");
      assert ExchangeGroup(d) == " " + d[4..Min(7, |d|)] + "";
    }
  }

  lemma LineGroupDigits(d: string)
    requires 1 <= |d| <= 11 && AllDigits(d)
    ensures Digits(LineGroup(d)) == d[Min(7, |d|)..]
  {
    if |d| > 7 {
      DigitsOfGroup("-", d[7..], "");
      assert LineGroup(d) == "-" + d[7..] + "";
    }
  }

  /** Reading the digits back out of a mask gives the digits that were laid out. */
  lemma MaskDigits(d: string)
    requires 1 <= |d| <= 11 && AllDigits(d)
    ensures Digits(Mask(d)) == d
  {
    var a, b, c, e := "+" + d[..1], AreaGroup(d), ExchangeGroup(d), LineGroup(d);
    GroupDigits(d);
    DigitsAppend(a + b + c, e);
    DigitsAppend(a + b, c);
    DigitsAppend(a, b);
    var m1, m2 := Min(4, |d|), Min(7, |d|);
    assert d == d[..1] + d[1..m1] + d[m1..m2] + d[m2..];
  }

  /** `formatPhoneNumber` */
  function FormatPhoneNumber(value: string): (r: string)
    ensures r == "" <==> forall i :: 0 <= i < |value| ==> !IsDigit(value[i])
    ensures |r| <= 17
    ensures r != "" ==> |r| >= 2 && r[..2] == "+7"
    ensures Digits(r) == PhoneDigits(value)
  {
    DigitsEmptyIffNoDigit(value);
    var p := PhoneDigits(value);
    if p == "" then ""
    else
      MaskDigits(p);
      Mask(p)
  }

  /** Formatting an already formatted value returns it unchanged. */
  lemma FormatIdempotent(value: string)
    ensures FormatPhoneNumber(FormatPhoneNumber(value)) == FormatPhoneNumber(value)
  {
    var r := FormatPhoneNumber(value);
    if r != "" {
      var p := PhoneDigits(value);
      assert Digits(r) == p;
      assert PhoneDigits(r) == p;
    }
  }

  // ---------------------------------------------------------------------------
  // Backspace

  /** What the key-down handler does with the key event. */
  datatype KeyDownEffect =
    | BrowserDefault          // not handled: the input's own editing applies
    | Suppressed              // default prevented, phone unchanged
    | PhoneSet(phone: string) // default prevented, phone replaced

  /** `findIndex(char => /\d/.test(char))`: the first digit position, or -1. */
  function FindDigitIndex(s: string): (i: int)
    ensures -1 <= i < |s|
    ensures i >= 0 ==> IsDigit(s[i]) && forall j :: 0 <= j < i ==> !IsDigit(s[j])
    ensures i == -1 ==> forall j :: 0 <= j < |s| ==> !IsDigit(s[j])
  {
    if |s| == 0 then -1
    else if IsDigit(s[0]) then 0
    else
      var k := FindDigitIndex(s[1..]);
      if k == -1 then -1 else k + 1
  }

  function RemoveAt(s: string, i: int): string
    requires 0 <= i < |s|
  {
    s[..i] + s[i + 1..]
  }

  /** The handler acts: Backspace, a cursor past the start, and a non-digit just before it. */
  predicate HandlesBackspace(key: string, value: string, selectionStart: Option<nat>)
  {
    key == "Backspace" && selectionStart.Some? &&
    0 < selectionStart.value <= |value| && !IsDigit(value[selectionStart.value - 1])
  }

  /** `i` is the last digit strictly before `cursor`. */
  predicate IsLastDigitBefore(value: string, cursor: int, i: int)
  {
    0 <= i < cursor <= |value| && IsDigit(value[i]) &&
    forall j :: i < j < cursor ==> !IsDigit(value[j])
  }

  /**
   * `valueBeforeCursor.split('').reverse().findIndex(isDigit)` turned back into
   * a position of `value`: the last digit before the cursor, or -1 when there is none.
   */
  function LastDigitBefore(value: string, cursorPosition: nat): (i: int)
    requires cursorPosition <= |value|
    ensures i == -1 || IsLastDigitBefore(value, cursorPosition, i)
    ensures i == -1 <==> forall j :: 0 <= j < cursorPosition ==> !IsDigit(value[j])
  {
    var reversed := Reverse(value[..cursorPosition]);
    var lastDigitIndex := FindDigitIndex(reversed);
    assert forall j :: 0 <= j < cursorPosition ==> value[j] == reversed[cursorPosition - 1 - j];
    if lastDigitIndex >= 0 then cursorPosition - 1 - lastDigitIndex else -1
  }

  /** The handler's work once it acts: delete the last digit before the cursor, if any. */
  function DeleteDigitBeforeCursor(value: string, cursorPosition: nat): (r: KeyDownEffect)
    requires 0 < cursorPosition <= |value|
    ensures !r.BrowserDefault?
    ensures r.Suppressed? <==> forall j :: 0 <= j < cursorPosition ==> !IsDigit(value[j])
    ensures r.PhoneSet? ==>
            exists i :: IsLastDigitBefore(value, cursorPosition, i) &&
                        r.phone == FormatPhoneNumber(RemoveAt(value, i))
  {
    var indexToRemove := LastDigitBefore(value, cursorPosition);
    if indexToRemove >= 0 then
      PhoneSet(FormatPhoneNumber(RemoveAt(value, indexToRemove)))
    else
      Suppressed
  }

  /** `handlePhoneKeyDown` */
  function PhoneKeyDown(key: string, value: string, selectionStart: Option<nat>): (r: KeyDownEffect)
    ensures r.BrowserDefault? <==> !HandlesBackspace(key, value, selectionStart)
    ensures r.Suppressed? <==>
            HandlesBackspace(key, value, selectionStart) &&
            forall j :: 0 <= j < selectionStart.value ==> !IsDigit(value[j])
    ensures r.PhoneSet? ==>
            HandlesBackspace(key, value, selectionStart) &&
            exists i :: IsLastDigitBefore(value, selectionStart.value, i) &&
                        r.phone == FormatPhoneNumber(RemoveAt(value, i))
  {
    if key != "Backspace" then BrowserDefault
    else if selectionStart.None? || selectionStart.value == 0 then BrowserDefault
    else
      var cursorPosition := selectionStart.value;
      if cursorPosition > |value| || IsDigit(value[cursorPosition - 1]) then BrowserDefault
      else DeleteDigitBeforeCursor(value, cursorPosition)
  }

  /** Removing a digit takes exactly that one digit out of the digit string. */
  lemma RemovingADigit(value: string, i: int)
    requires 0 <= i < |value| && IsDigit(value[i])
    ensures Digits(value) == Digits(value[..i]) + [value[i]] + Digits(value[i + 1..])
    ensures Digits(RemoveAt(value, i)) == Digits(value[..i]) + Digits(value[i + 1..])
    ensures |Digits(RemoveAt(value, i))| + 1 == |Digits(value)|
  {
    assert value == value[..i] + [value[i]] + value[i + 1..];
    DigitsAppend(value[..i] + [value[i]], value[i + 1..]);
    DigitsAppend(value[..i], [value[i]]);
    DigitsAppend(value[..i], value[i + 1..]);
  }

  /** When Backspace sets the phone, it is the mask of the value with one digit fewer. */
  lemma BackspaceDropsOneDigit(key: string, value: string, selectionStart: Option<nat>)
    requires PhoneKeyDown(key, value, selectionStart).PhoneSet?
    ensures exists i :: 0 <= i < |value| && IsDigit(value[i]) &&
                        |Digits(RemoveAt(value, i))| + 1 == |Digits(value)| &&
                        PhoneKeyDown(key, value, selectionStart).phone == FormatPhoneNumber(RemoveAt(value, i))
  {
    var r := PhoneKeyDown(key, value, selectionStart);
    var i :| IsLastDigitBefore(value, selectionStart.value, i) && r.phone == FormatPhoneNumber(RemoveAt(value, i));
    RemovingADigit(value, i);
    assert 0 <= i < |value| && IsDigit(value[i]);
  }

  lemma FormatOfDigitString(value: string, d: string)
    requires |value| > 0 && AllDigits(value) && WithCountryCode(value) == d && |d| <= 11
    ensures FormatPhoneNumber(value) == Mask(d)
  {
    DigitsOfDigits(value);
    assert d[..Min(11, |d|)] == d;
  }

  /** The mask unfolded for a full eleven-digit number; a step towards the examples below. */
  lemma MaskOfFullNumber(d: string)
    requires |d| == 11
    ensures Mask(d) == "+" + d[..1] + " (" + d[1..4] + ")" + " " + d[4..7] + "-" + d[7..]
  {
  }

  // The examples below take their literal inputs as parameters fixed by `requires`.

  lemma FullNumberPieces(d: string)
    requires d == "79991234567"
    ensures "+" + d[..1] + " (" + d[1..4] + ")" + " " + d[4..7] + "-" + d[7..] == "+7 (999) 123-4567"
  {
    assert d[..1] == "7" && d[1..4] == "999" && d[4..7] == "123" && d[7..] == "4567";
  }

  lemma FullNumberExample(d: string)
    requires d == "79991234567"
    ensures Mask(d) == "+7 (999) 123-4567"
  {
    MaskOfFullNumber(d);
    FullNumberPieces(d);
  }

  lemma CountryCodeExamples(ten: string, trunk: string)
    requires ten == "9991234567" && trunk == "89991234567"
    ensures AllDigits(ten) && WithCountryCode(ten) == "79991234567"
    ensures AllDigits(trunk) && WithCountryCode(trunk) == "79991234567"
  {
  }

  /** A ten-digit number typed without the country code. */
  lemma FormatTenDigits()
    ensures FormatPhoneNumber("9991234567") == "+7 (999) 123-4567"
  {
    CountryCodeExamples("9991234567", "89991234567");
    FormatOfDigitString("9991234567", "79991234567");
    FullNumberExample("79991234567");
  }

  /** A leading trunk 8 becomes the country code 7. */
  lemma FormatTrunkPrefix()
    ensures FormatPhoneNumber("89991234567") == "+7 (999) 123-4567"
  {
    CountryCodeExamples("9991234567", "89991234567");
    FormatOfDigitString("89991234567", "79991234567");
    FullNumberExample("79991234567");
  }

  /** A partial number: the area group is closed as soon as it is full. */
  lemma FormatPartial()
    ensures FormatPhoneNumber("8999") == "+7 (999)"
    ensures FormatPhoneNumber("") == ""
  {
    PartialNumber("8999", "7999");
  }

  lemma PartialNumber(value: string, p: string)
    requires value == "8999" && p == "7999"
    ensures FormatPhoneNumber(value) == "+7 (999)"
  {
    assert WithCountryCode(value) == p;
    FormatOfDigitString(value, p);
    PartialMask(p);
  }

  lemma PartialMask(p: string)
    requires p == "7999"
    ensures Mask(p) == "+7 (999)"
  {
    assert p[1..4] == "999";
    assert Mask(p) == "+7" + " (999)";
  }

  lemma BackspaceExampleSearch(value: string)
    requires value == "+7 (999) 123"
    ensures HandlesBackspace("Backspace", value, Some(9))
    ensures LastDigitBefore(value, 9) == 6
  {
    assert value[8] == ' ' && value[6] == '9' && value[7] == ')';
    assert IsLastDigitBefore(value, 9, 6);
  }

  lemma BackspaceExampleRemove(value: string)
    requires value == "+7 (999) 123"
    ensures RemoveAt(value, 6) == "+7 (99) 123"
  {
  }

  lemma BackspaceExampleEffect(value: string)
    requires value == "+7 (999) 123"
    ensures PhoneKeyDown("Backspace", value, Some(9)) == PhoneSet(FormatPhoneNumber(RemoveAt(value, 6)))
  {
    BackspaceExampleSearch(value);
  }

  lemma BackspaceExampleDigits(head: string, tail: string)
    requires head == "+7 (" && tail == "99) 123"
    ensures Digits(head + tail) == "799123"
  {
    ExampleHeadDigits(head);
    ExampleTailDigits(tail);
    DigitsAppend(head, tail);
  }

  lemma ExampleHeadDigits(head: string)
    requires head == "+7 ("
    ensures Digits(head) == "7"
  {
    assert Digits("+") == "" && Digits(" (") == "";
    assert head == "+" + "7" + " (";
    DigitsOfGroup("+", "7", " (");
  }

  lemma ExampleTailDigits(tail: string)
    requires tail == "99) 123"
    ensures Digits(tail) == "99123"
  {
    assert Digits("") == "" && Digits(") ") == "";
    DigitsOfGroup("", "99", ") ");
    DigitsOfDigits("123");
    assert tail == "" + "99" + ") " + "123";
    DigitsAppend("" + "99" + ") ", "123");
  }

  lemma BackspaceExampleMask(p: string)
    requires p == "799123"
    ensures Mask(p) == "+7 (991) 23"
  {
    assert p[..1] == "7" && p[1..4] == "991" && p[4..] == "23";
    assert AreaGroup(p) == " (991)";
    assert ExchangeGroup(p) == " 23";
    assert LineGroup(p) == "";
  }

  lemma BackspaceExampleFormat(edited: string)
    requires edited == "+7 (99) 123"
    ensures FormatPhoneNumber(edited) == "+7 (991) 23"
  {
    BackspaceExampleDigits("+7 (", "99) 123");
    assert edited == "+7 (" + "99) 123";
    assert PhoneDigits(edited) == "799123";
    BackspaceExampleMask("799123");
  }

  /** Backspace just after the space that follows `)` deletes the last area-code digit and re-masks. */
  lemma BackspaceExample()
    ensures PhoneKeyDown("Backspace", "+7 (999) 123", Some(9)) == PhoneSet("+7 (991) 23")
  {
    BackspaceExampleEffect("+7 (999) 123");
    BackspaceExampleRemove("+7 (999) 123");
    BackspaceExampleFormat("+7 (99) 123");
  }
}

=== FILE: roster.dfy ===
/**
 * The records the store holds and the criteria it filters and sorts by.
 * `Employee` mirrors the record the slice stores; its TypeScript type lives in
 * data/employees.ts, which is not part of this model, so `role` is kept as the
 * string the filter compares against.
 */
module Roster {
  import opened Common

  datatype Employee = Employee(
    id: int,
    name: string,
    phone: string,
    birthday: string,
    role: string,
    isArchive: bool)

  /** `role == None` is `null`; the empty string restricts nothing either. */
  datatype FilterCriteria = FilterCriteria(role: Option<string>, isArchive: bool)

  datatype SortField = Name | Birthday
  datatype Direction = Asc | Desc
  datatype SortCriteria = SortCriteria(field: SortField, direction: Direction)

  /** No two records share an id. */
  predicate UniqueIds(list: seq<Employee>)
  {
    forall i, j :: 0 <= i < |list| && 0 <= j < |list| && i != j ==> list[i].id != list[j].id
  }
}

=== FILE: slice_examples.dfy ===
/**
 * The reducer scenarios of the slice's own test file, on its two records, and
 * the scenario that separates `setFilter` as written from the corrected one.
 */
module SliceExamples {
  import opened Common
  import opened Text
  import opened Dates
  import opened Roster
  import opened Filtering
  import opened Sorting
  import opened EmployeesSlice

  const Ivan: Employee := Employee(1, "Иван Иванов", "+7 (123) 456-7890", "01.01.1990", "driver", false)
  const Maria: Employee := Employee(2, "Мария Петрова", "+7 (987) 654-3210", "15.05.1985", "cook", true)

  /** Both records, in list order, under the default criteria. */
  const Start: EmployeesState := EmployeesState([Ivan, Maria], [Ivan, Maria], DefaultFilter, DefaultSort)

  /** A sorted two-record view is fixed by the one comparison between them. */
  lemma SortedPair(r: seq<Employee>, a: Employee, b: Employee, sort: SortCriteria)
    requires |r| == 2 && multiset(r) == multiset{a, b} && Sorted(r, sort)
    requires Compare(a, b, sort) > 0
    ensures r == [b, a]
  {
    assert r[0] in multiset(r) && r[1] in multiset(r);
    assert multiset(r) == multiset{r[0], r[1]} by {
      assert r == [r[0]] + [r[1]];
    }
    assert Compare(r[0], r[1], sort) <= 0;
    if r[0] == a && a != b {
      assert false;
    }
  }

  /** `setFilter({ role: 'driver' })` keeps the driver only. */
  lemma RoleFilterExample()
    ensures SetFilter(Start, FilterPatch(Some(Some("driver")), None)).filteredList == [Ivan]
    ensures SetFilter(Start, FilterPatch(Some(Some("driver")), None)).list == Start.list
  {
    var f := FilterCriteria(Some("driver"), false);
    assert Keeps(f, Ivan) && !Keeps(f, Maria);
    assert ApplyFilters([Maria], f) == [];
  }

  /** `setFilter({ isArchive: true })` keeps the archived record only. */
  lemma ArchiveFilterExample()
    ensures SetFilter(Start, FilterPatch(None, Some(true))).filteredList == [Maria]
  {
    var f := FilterCriteria(None, true);
    assert !Keeps(f, Ivan) && Keeps(f, Maria);
    assert ApplyFilters([Maria], f) == [Maria];
  }

  /** Cyrillic И comes before М, so Иван sorts before Мария by name. */
  lemma IvanBeforeMaria()
    ensures LexLess(Ivan.name, Maria.name)
    ensures Ivan.name != Maria.name
  {
    assert Ivan.name[0] == 'И' && Maria.name[0] == 'М';
  }

  /** `setSort({ field: 'name', direction: 'desc' })` puts Мария first. */
  lemma NameDescendingExample()
    ensures SetSort(Start, SortPatch(Some(Name), Some(Desc))).filteredList == [Maria, Ivan]
  {
    var sort := SortCriteria(Name, Desc);
    var r := SetSort(Start, SortPatch(Some(Name), Some(Desc)));
    IvanBeforeMaria();
    LexTrichotomy(Ivan.name, Maria.name);
    assert Compare(Ivan, Maria, sort) > 0;
    assert multiset(r.filteredList) == multiset{Ivan, Maria} by {
      assert multiset([Ivan, Maria]) == multiset{Ivan, Maria};
    }
    SortedPair(r.filteredList, Ivan, Maria, sort);
  }

  /** The two birthdays, read from their stored `DD.MM.YYYY` form. */
  lemma TestBirthdays()
    ensures BirthdayKey(Ivan.birthday) == Some(Date(1990, 1, 1))
    ensures BirthdayKey(Maria.birthday) == Some(Date(1985, 5, 15))
  {
    IvanDotted();
    MariaDotted();
    BirthdayKeyOfBothForms(Date(1990, 1, 1));
    BirthdayKeyOfBothForms(Date(1985, 5, 15));
  }

  lemma IvanDotted()
    ensures IsCalendarDate(Date(1990, 1, 1)) && FormatDotted(Date(1990, 1, 1)) == "01.01.1990"
  {
    PadsOf1990();
  }

  lemma PadsOf1990()
    ensures PadDigits(1, 2) == "01" && PadDigits(1990, 4) == "1990"
  {
  }

  lemma MariaDotted()
    ensures IsCalendarDate(Date(1985, 5, 15)) && FormatDotted(Date(1985, 5, 15)) == "15.05.1985"
  {
    PadsOf1985();
  }

  lemma PadsOf1985()
    ensures PadDigits(15, 2) == "15" && PadDigits(5, 2) == "05" && PadDigits(1985, 4) == "1985"
  {
  }

  /** The later birthday compares above the earlier one, through the calendar order of the dates. */
  lemma BirthdaysCompare(later: Employee, earlier: Employee)
    requires later == Ivan && earlier == Maria
    ensures HasSortKey(later, SortCriteria(Birthday, Asc)) && HasSortKey(earlier, SortCriteria(Birthday, Asc))
    ensures Compare(later, earlier, SortCriteria(Birthday, Asc)) > 0
  {
    TestBirthdays();
    CompareByDates(later, earlier, Date(1990, 1, 1), Date(1985, 5, 15));
  }

  /** Records whose birthdays read as dates compare as the dates do. */
  lemma CompareByDates(a: Employee, b: Employee, da: Date, db: Date)
    requires BirthdayKey(a.birthday) == Some(da) && BirthdayKey(b.birthday) == Some(db) && DateBefore(db, da)
    ensures HasSortKey(a, SortCriteria(Birthday, Asc)) && HasSortKey(b, SortCriteria(Birthday, Asc))
    ensures Compare(a, b, SortCriteria(Birthday, Asc)) > 0
  {
    TimeValueOrder(db, da);
  }

  /** `setSort({ field: 'birthday', direction: 'asc' })` puts the 1985 birthday first. */
  lemma BirthdayAscendingExample()
    ensures SetSort(Start, SortPatch(Some(Birthday), Some(Asc))).filteredList == [Maria, Ivan]
  {
    var sort := SortCriteria(Birthday, Asc);
    var r := SetSort(Start, SortPatch(Some(Birthday), Some(Asc)));
    BirthdaysCompare(Ivan, Maria);
    assert Comparable(Start.filteredList, sort);
    assert multiset(r.filteredList) == multiset{Ivan, Maria} by {
      assert multiset([Ivan, Maria]) == multiset{Ivan, Maria};
    }
    SortedPair(r.filteredList, Ivan, Maria, sort);
  }

  /** `addEmployee` on ids 1 and 2 appends the new record under id 3. */
  lemma AddExample(draft: Employee)
    ensures |AddEmployee(Start, draft).list| == 3
    ensures AddEmployee(Start, draft).list[2] == draft.(id := 3)
  {
    var r := AddEmployee(Start, draft);
    assert MaxId(Start.list) == 2;
  }

  /** `updateEmployee` with id 1 replaces the first record and leaves the second. */
  lemma UpdateExample(edited: Employee)
    requires edited.id == 1
    ensures UpdateEmployee(Start, edited).list == [edited, Maria]
  {
    assert FindIndexById(Start.list, 1) == 0;
  }

  /**
   * After sorting by name descending, a `setFilter` that changes nothing puts
   * the view back in list order while the criteria still say descending.
   */
  lemma FilterDropsSortOrder()
    ensures Sorted(SetSort(Start, SortPatch(Some(Name), Some(Desc))).filteredList, SortCriteria(Name, Desc))
    ensures !Sorted(SetFilter(SetSort(Start, SortPatch(Some(Name), Some(Desc))), FilterPatch(None, None)).filteredList,
                    SortCriteria(Name, Desc))
  {
    var sorted := SetSort(Start, SortPatch(Some(Name), Some(Desc)));
    NameDescendingExample();
    IvanBeforeMaria();
    LexTrichotomy(Ivan.name, Maria.name);
    var refiltered := SetFilter(sorted, FilterPatch(None, None));
    UnrestrictedFilterIsIdentity(sorted.list, sorted.filter);
    assert refiltered.filteredList == [Ivan, Maria];
    assert Compare(Ivan, Maria, SortCriteria(Name, Desc)) > 0;
  }

  /** The corrected `setFilter` keeps the descending order on the same scenario. */
  lemma SortedFilterKeepsOrder()
    ensures SetFilterSorted(SetSort(Start, SortPatch(Some(Name), Some(Desc))), FilterPatch(None, None)).filteredList ==
      [Maria, Ivan]
  {
    var sorted := SetSort(Start, SortPatch(Some(Name), Some(Desc)));
    NameDescendingExample();
    IvanBeforeMaria();
    LexTrichotomy(Ivan.name, Maria.name);
    var r := SetFilterSorted(sorted, FilterPatch(None, None));
    UnrestrictedFilterIsIdentity(sorted.list, sorted.filter);
    assert multiset(r.filteredList) == multiset{Ivan, Maria} by {
      assert forall e :: multiset(r.filteredList)[e] == multiset([Ivan, Maria])[e];
      assert multiset([Ivan, Maria]) == multiset{Ivan, Maria};
    }
    SortedPair(r.filteredList, Ivan, Maria, r.sort);
  }
}

=== FILE: sorting.dfy ===
/**
 * `applySorting`: a sorted copy of the view under the slice's comparator.
 * `Array.prototype.sort` is stable; the model sorts by stable insertion, and its
 * contracts speak of order up to equal keys.
 */
module Sorting {
  import opened Common
  import opened Text
  import opened Dates
  import opened Roster
  import opened StableSort

  /** `getTime()` of the date read from a stored birthday; `None` stands for NaN. */
  function BirthdayTime(birthday: string): Option<int>
  {
    match BirthdayKey(birthday)
    case None => None
    case Some(d) => Some(TimeValue(d))
  }

  /**
   * The comparator `applySorting` passes to `sort`: `localeCompare` on names,
   * the difference of time values on birthdays, operands swapped for `desc`.
   * A NaN difference (an unreadable date) is read by the sort as 0.
   */
  function Compare(a: Employee, b: Employee, sort: SortCriteria): (r: int)
    ensures sort.field == Name ==> (r == 0 <==> a.name == b.name)
    ensures sort.field == Name && sort.direction == Asc ==> (r < 0 <==> LexLess(a.name, b.name))
    ensures sort.field == Name && sort.direction == Desc ==> (r < 0 <==> LexLess(b.name, a.name))
    ensures sort.field == Birthday && (BirthdayKey(a.birthday).None? || BirthdayKey(b.birthday).None?) ==> r == 0
  {
    match sort.field
    case Name =>
      if sort.direction == Asc then LocaleCompare(a.name, b.name) else LocaleCompare(b.name, a.name)
    case Birthday =>
      var ta, tb := BirthdayTime(a.birthday), BirthdayTime(b.birthday);
      if ta.None? || tb.None? then 0
      else if sort.direction == Asc then ta.value - tb.value else tb.value - ta.value
  }

  function Comparator(sort: SortCriteria): (Employee, Employee) -> int
  {
    (a: Employee, b: Employee) => Compare(a, b, sort)
  }

  /** The record has a key the comparator orders consistently. */
  predicate HasSortKey(e: Employee, sort: SortCriteria)
  {
    sort.field == Name || BirthdayKey(e.birthday).Some?
  }

  predicate Comparable(s: seq<Employee>, sort: SortCriteria)
  {
    forall i :: 0 <= i < |s| ==> HasSortKey(s[i], sort)
  }

  predicate Sorted(s: seq<Employee>, sort: SortCriteria)
  {
    forall i, j :: 0 <= i < j < |s| ==> Compare(s[i], s[j], sort) <= 0
  }

  /** `[...employees].sort(comparator)`: a new sequence with the same records. */
  function ApplySorting(employees: seq<Employee>, sort: SortCriteria): (r: seq<Employee>)
    ensures multiset(r) == multiset(employees)
    ensures |r| == |employees|
  {
    SortBy(employees, Comparator(sort))
  }

  /** With both birthdays readable, the comparator follows the calendar order of the dates. */
  lemma BirthdayCompareMeaning(a: Employee, b: Employee, sort: SortCriteria)
    requires sort.field == Birthday && BirthdayKey(a.birthday).Some? && BirthdayKey(b.birthday).Some?
    ensures Compare(a, b, sort) == 0 <==> BirthdayKey(a.birthday) == BirthdayKey(b.birthday)
    ensures sort.direction == Asc ==>
      (Compare(a, b, sort) < 0 <==> DateBefore(BirthdayKey(a.birthday).value, BirthdayKey(b.birthday).value))
    ensures sort.direction == Desc ==>
      (Compare(a, b, sort) < 0 <==> DateBefore(BirthdayKey(b.birthday).value, BirthdayKey(a.birthday).value))
  {
    var da, db := BirthdayKey(a.birthday).value, BirthdayKey(b.birthday).value;
    TimeValueOrder(da, db);
    TimeValueOrder(db, da);
  }

  /** Swapping the operands negates the comparison, for every pair of records. */
  lemma CompareAntisymmetric(a: Employee, b: Employee, sort: SortCriteria)
    ensures Compare(a, b, sort) == -Compare(b, a, sort)
  {
    LexTrichotomy(a.name, b.name);
  }

  lemma CompareTotal(a: Employee, b: Employee, sort: SortCriteria)
    requires HasSortKey(a, sort) && HasSortKey(b, sort)
    ensures Compare(a, b, sort) <= 0 || Compare(b, a, sort) <= 0
  {
    LexTrichotomy(a.name, b.name);
  }

  lemma CompareTransitive(a: Employee, b: Employee, c: Employee, sort: SortCriteria)
    requires HasSortKey(a, sort) && HasSortKey(b, sort) && HasSortKey(c, sort)
    requires Compare(a, b, sort) <= 0 && Compare(b, c, sort) <= 0
    ensures Compare(a, c, sort) <= 0
  {
    if sort.field == Name {
      if sort.direction == Asc {
        if LexLess(a.name, b.name) && LexLess(b.name, c.name) {
          LexTransitive(a.name, b.name, c.name);
        }
      } else {
        if LexLess(c.name, b.name) && LexLess(b.name, a.name) {
          LexTransitive(c.name, b.name, a.name);
        }
      }
    }
  }

  /** On records with readable keys the comparator is a total preorder. */
  lemma ComparatorConsistent(sort: SortCriteria)
    ensures ConsistentOn(Comparator(sort), (e: Employee) => HasSortKey(e, sort))
  {
    var cmp := Comparator(sort);
    forall a, b | HasSortKey(a, sort) && HasSortKey(b, sort)
      ensures cmp(a, b) <= 0 || cmp(b, a) <= 0
    {
      CompareTotal(a, b, sort);
    }
    forall a, b, c | HasSortKey(a, sort) && HasSortKey(b, sort) && HasSortKey(c, sort) &&
                     cmp(a, b) <= 0 && cmp(b, c) <= 0
      ensures cmp(a, c) <= 0
    {
      CompareTransitive(a, b, c, sort);
    }
  }

  /** Sorting records that all have a readable key puts them in comparator order. */
  lemma ApplySortingSorted(employees: seq<Employee>, sort: SortCriteria)
    ensures Comparable(employees, sort) ==> Sorted(ApplySorting(employees, sort), sort)
  {
    if Comparable(employees, sort) {
      ComparatorConsistent(sort);
      SortBySorted(employees, Comparator(sort), (e: Employee) => HasSortKey(e, sort));
    }
  }

  /** A view already in order comes back unchanged, so sorting twice is sorting once. */
  lemma SortTwiceIsSortOnce(employees: seq<Employee>, sort: SortCriteria)
    requires Comparable(employees, sort)
    ensures ApplySorting(ApplySorting(employees, sort), sort) == ApplySorting(employees, sort)
  {
    ApplySortingSorted(employees, sort);
    SortedIsFixedPoint(ApplySorting(employees, sort), Comparator(sort));
  }

  lemma SortedViewUnchanged(employees: seq<Employee>, sort: SortCriteria)
    requires Sorted(employees, sort)
    ensures ApplySorting(employees, sort) == employees
  {
    SortedIsFixedPoint(employees, Comparator(sort));
  }

  /** `desc` swaps the comparator's operands: an ascending order read backwards is descending. */
  lemma DescendingIsReversedAscending(s: seq<Employee>, field: SortField)
    requires Sorted(s, SortCriteria(field, Asc))
    ensures Sorted(Reverse(s), SortCriteria(field, Desc))
  {
    var r := Reverse(s);
    forall i, j | 0 <= i < j < |r| ensures Compare(r[i], r[j], SortCriteria(field, Desc)) <= 0 {
      assert r[i] == s[|s| - 1 - i] && r[j] == s[|s| - 1 - j];
      assert Compare(s[|s| - 1 - j], s[|s| - 1 - i], SortCriteria(field, Asc)) <= 0;
    }
  }

  /** Ascending by name means names never decrease in code-point order. */
  lemma NameAscendingMeaning(s: seq<Employee>)
    ensures Sorted(s, SortCriteria(Name, Asc)) <==>
            forall i, j :: 0 <= i < j < |s| ==> !LexLess(s[j].name, s[i].name)
  {
    forall i, j | 0 <= i < j < |s|
      ensures Compare(s[i], s[j], SortCriteria(Name, Asc)) <= 0 <==> !LexLess(s[j].name, s[i].name)
    {
      LexTrichotomy(s[i].name, s[j].name);
    }
  }

  /** Ascending by readable birthdays means nobody is born later than a record after them. */
  lemma BirthdayAscendingMeaning(s: seq<Employee>)
    requires Comparable(s, SortCriteria(Birthday, Asc))
    ensures Sorted(s, SortCriteria(Birthday, Asc)) <==>
            forall i, j :: 0 <= i < j < |s| ==>
              !DateBefore(BirthdayKey(s[j].birthday).value, BirthdayKey(s[i].birthday).value)
  {
    forall i, j | 0 <= i < j < |s|
      ensures Compare(s[i], s[j], SortCriteria(Birthday, Asc)) <= 0 <==>
              !DateBefore(BirthdayKey(s[j].birthday).value, BirthdayKey(s[i].birthday).value)
    {
      assert HasSortKey(s[i], SortCriteria(Birthday, Asc)) && HasSortKey(s[j], SortCriteria(Birthday, Asc));
      TimeValueOrder(BirthdayKey(s[j].birthday).value, BirthdayKey(s[i].birthday).value);
    }
  }
}

=== FILE: stable_sort.dfy ===
/**
 * Stable sorting of a sequence under a three-way comparator, the way
 * `Array.prototype.sort(comparator)` uses it: only the sign of the result
 * matters, and a non-positive result lets the first operand stay first.
 */
module StableSort {

  /** Every pair in order under `cmp`. */
  predicate SortedBy<T>(s: seq<T>, cmp: (T, T) -> int)
  {
    forall i, j :: 0 <= i < j < |s| ==> cmp(s[i], s[j]) <= 0
  }

  predicate AllSatisfy<T>(s: seq<T>, ok: T -> bool)
  {
    forall i :: 0 <= i < |s| ==> ok(s[i])
  }

  /**
   * On the values `ok` admits, `cmp` is a total preorder: every pair is
   * comparable one way or the other, and "not after" is transitive.
   */
  ghost predicate ConsistentOn<T(!new)>(cmp: (T, T) -> int, ok: T -> bool)
  {
    (forall a, b :: ok(a) && ok(b) ==> cmp(a, b) <= 0 || cmp(b, a) <= 0) &&
    (forall a, b, c :: ok(a) && ok(b) && ok(c) && cmp(a, b) <= 0 && cmp(b, c) <= 0 ==> cmp(a, c) <= 0)
  }

  /** Places `x` before the first element it does not follow. */
  function Insert<T>(x: T, s: seq<T>, cmp: (T, T) -> int): (r: seq<T>)
    ensures multiset(r) == multiset(s) + multiset{x}
    ensures |r| == |s| + 1
  {
    if |s| == 0 then [x]
    else if cmp(x, s[0]) <= 0 then [x] + s
    else
      assert s == [s[0]] + s[1..];
      [s[0]] + Insert(x, s[1..], cmp)
  }

  /** Insertion sort: the head is inserted into the sorted tail, ahead of its equals. */
  function SortBy<T>(s: seq<T>, cmp: (T, T) -> int): (r: seq<T>)
    ensures multiset(r) == multiset(s)
    ensures |r| == |s|
  {
    if |s| == 0 then []
    else
      assert s == [s[0]] + s[1..];
      Insert(s[0], SortBy(s[1..], cmp), cmp)
  }

  lemma AllSatisfyPermutation<T>(a: seq<T>, b: seq<T>, ok: T -> bool)
    requires multiset(a) == multiset(b) && AllSatisfy(a, ok)
    ensures AllSatisfy(b, ok)
  {
    forall i | 0 <= i < |b| ensures ok(b[i]) {
      assert b[i] in multiset(a);
    }
  }

  /** An element not after any element of a sorted sequence can go in front of it. */
  lemma ConsSorted<T>(h: T, t: seq<T>, cmp: (T, T) -> int)
    requires SortedBy(t, cmp)
    requires forall j :: 0 <= j < |t| ==> cmp(h, t[j]) <= 0
    ensures SortedBy([h] + t, cmp)
  {
    var r := [h] + t;
    forall i, j | 0 <= i < j < |r| ensures cmp(r[i], r[j]) <= 0 {
      assert r[j] == t[j - 1];
      if i > 0 {
        assert r[i] == t[i - 1];
      }
    }
  }

  /** What `Insert` puts after the head of a sorted sequence is never before that head. */
  lemma HeadBeforeInserted<T(!new)>(x: T, s: seq<T>, cmp: (T, T) -> int, ok: T -> bool)
    requires ConsistentOn(cmp, ok) && ok(x) && AllSatisfy(s, ok) && SortedBy(s, cmp)
    requires |s| > 0 && cmp(x, s[0]) > 0
    ensures forall j :: 0 <= j < |Insert(x, s[1..], cmp)| ==> cmp(s[0], Insert(x, s[1..], cmp)[j]) <= 0
  {
    var t := Insert(x, s[1..], cmp);
    assert cmp(s[0], x) <= 0;
    forall j | 0 <= j < |t| ensures cmp(s[0], t[j]) <= 0 {
      assert t[j] in multiset(t);
      if t[j] != x {
        assert t[j] in multiset(s[1..]);
        var k :| 0 <= k < |s[1..]| && s[1..][k] == t[j];
        assert s[k + 1] == t[j];
      }
    }
  }

  lemma {:induction false} InsertSorted<T(!new)>(x: T, s: seq<T>, cmp: (T, T) -> int, ok: T -> bool)
    requires ConsistentOn(cmp, ok) && ok(x) && AllSatisfy(s, ok) && SortedBy(s, cmp)
    ensures SortedBy(Insert(x, s, cmp), cmp)
  {
    if |s| > 0 {
      if cmp(x, s[0]) <= 0 {
        forall j | 0 <= j < |s| ensures cmp(x, s[j]) <= 0 {
          if j > 0 {
            assert cmp(s[0], s[j]) <= 0;
          }
        }
        ConsSorted(x, s, cmp);
      } else {
        InsertSorted(x, s[1..], cmp, ok);
        HeadBeforeInserted(x, s, cmp, ok);
        ConsSorted(s[0], Insert(x, s[1..], cmp), cmp);
      }
    }
  }

  /** Under a total preorder on the elements, the result is in order. */
  lemma {:induction false} SortBySorted<T(!new)>(s: seq<T>, cmp: (T, T) -> int, ok: T -> bool)
    requires ConsistentOn(cmp, ok) && AllSatisfy(s, ok)
    ensures SortedBy(SortBy(s, cmp), cmp)
  {
    if |s| > 0 {
      var rest := SortBy(s[1..], cmp);
      SortBySorted(s[1..], cmp, ok);
      AllSatisfyPermutation(s[1..], rest, ok);
      InsertSorted(s[0], rest, cmp, ok);
    }
  }

  /** A sequence already in order comes back unchanged. */
  lemma {:induction false} SortedIsFixedPoint<T>(s: seq<T>, cmp: (T, T) -> int)
    requires SortedBy(s, cmp)
    ensures SortBy(s, cmp) == s
  {
    if |s| > 0 {
      SortedIsFixedPoint(s[1..], cmp);
      assert s == [s[0]] + s[1..];
    }
  }
}

=== FILE: text.dfy ===
/**
 * Character classes and the few `String.prototype` operations the roster logic
 * relies on: digit extraction (`replace(/\D/g, '')`), `trim`, `split`/`join`,
 * array reversal, and the code-point order used for names.
 */
module Text {

  /** `\d` in a JavaScript regular expression: an ASCII decimal digit. */
  predicate IsDigit(c: char)
  {
    '0' <= c <= '9'
  }

  predicate AllDigits(s: string)
  {
    forall i :: 0 <= i < |s| ==> IsDigit(s[i])
  }

  /** `s.replace(/\D/g, '')`: the digits of `s`, in order. */
  function Digits(s: string): (d: string)
    ensures AllDigits(d)
    ensures |d| <= |s|
  {
    if |s| == 0 then ""
    else (if IsDigit(s[0]) then [s[0]] else "") + Digits(s[1..])
  }

  lemma {:induction false} DigitsAppend(a: string, b: string)
    ensures Digits(a + b) == Digits(a) + Digits(b)
  {
    if |a| == 0 {
      assert a + b == b;
    } else {
      assert (a + b)[1..] == a[1..] + b;
      DigitsAppend(a[1..], b);
      var head := if IsDigit(a[0]) then [a[0]] else "";
      calc {
        Digits(a + b);
        head + Digits(a[1..] + b);
        head + (Digits(a[1..]) + Digits(b));
        (head + Digits(a[1..])) + Digits(b);
      }
    }
  }

  /** No digit comes out exactly when the string has no digit. */
  lemma {:induction false} DigitsEmptyIffNoDigit(s: string)
    ensures Digits(s) == "" <==> forall i :: 0 <= i < |s| ==> !IsDigit(s[i])
  {
    if |s| > 0 {
      DigitsEmptyIffNoDigit(s[1..]);
      assert forall i :: 1 <= i < |s| ==> s[i] == s[1..][i - 1];
    }
  }

  lemma {:induction false} DigitsOfDigits(s: string)
    requires AllDigits(s)
    ensures Digits(s) == s
  {
    if |s| > 0 {
      DigitsOfDigits(s[1..]);
    }
  }

  /**
   * The characters `String.prototype.trim` removes: the ECMAScript WhiteSpace
   * and LineTerminator productions.
   */
  predicate IsWhitespace(c: char)
  {
    c == '\t' || c == '\n' || c == '\U{000B}' || c == '\U{000C}' || c == '\r' ||
    c == ' ' || c == '\U{00A0}' || c == '\U{1680}' || ('\U{2000}' <= c <= '\U{200A}') ||
    c == '\U{2028}' || c == '\U{2029}' || c == '\U{202F}' || c == '\U{205F}' ||
    c == '\U{3000}' || c == '\U{FEFF}'
  }

  /** Empty or made of whitespace only. */
  predicate IsBlank(s: string)
  {
    forall i :: 0 <= i < |s| ==> IsWhitespace(s[i])
  }

  function TrimStart(s: string): string
  {
    if |s| > 0 && IsWhitespace(s[0]) then TrimStart(s[1..]) else s
  }

  function TrimEnd(s: string): string
  {
    if |s| > 0 && IsWhitespace(s[|s| - 1]) then TrimEnd(s[..|s| - 1]) else s
  }

  lemma {:induction false} TrimStartBlank(s: string)
    ensures TrimStart(s) == "" <==> IsBlank(s)
    ensures TrimStart(s) != "" ==> !IsWhitespace(TrimStart(s)[0])
  {
    if |s| > 0 && IsWhitespace(s[0]) {
      TrimStartBlank(s[1..]);
      if IsBlank(s[1..]) {
        assert IsBlank(s) by {
          forall i | 0 <= i < |s| ensures IsWhitespace(s[i]) {
            if i > 0 { assert s[i] == s[1..][i - 1]; }
          }
        }
      }
    }
  }

  lemma {:induction false} TrimEndKeepsHead(s: string)
    requires |s| > 0 && !IsWhitespace(s[0])
    ensures TrimEnd(s) != ""
  {
    if IsWhitespace(s[|s| - 1]) {
      TrimEndKeepsHead(s[..|s| - 1]);
    }
  }

  lemma TrimEmptyIffBlank(s: string)
    ensures TrimEnd(TrimStart(s)) == "" <==> IsBlank(s)
  {
    TrimStartBlank(s);
    if TrimStart(s) != "" {
      TrimEndKeepsHead(TrimStart(s));
    }
  }

  /** `s.trim()`: whitespace removed from both ends. */
  function Trim(s: string): (t: string)
    ensures t == "" <==> IsBlank(s)
  {
    TrimEmptyIffBlank(s);
    TrimEnd(TrimStart(s))
  }

  /** `Array.prototype.reverse` on a copy. */
  function Reverse<T>(s: seq<T>): (r: seq<T>)
    ensures |r| == |s|
    ensures forall i :: 0 <= i < |s| ==> r[i] == s[|s| - 1 - i]
  {
    if |s| == 0 then [] else Reverse(s[1..]) + [s[0]]
  }

  /** `s.split(sep)` for a one-character separator: never an empty array. */
  function Split(s: string, sep: char): (parts: seq<string>)
    ensures |parts| >= 1
    ensures forall k :: 0 <= k < |parts| ==> sep !in parts[k]
  {
    if |s| == 0 then [""]
    else
      var rest := Split(s[1..], sep);
      if s[0] == sep then [""] + rest
      else [[s[0]] + rest[0]] + rest[1..]
  }

  /** `parts.join(sep)` for a one-character separator. */
  function Join(parts: seq<string>, sep: char): string
  {
    if |parts| == 0 then ""
    else if |parts| == 1 then parts[0]
    else parts[0] + [sep] + Join(parts[1..], sep)
  }

  /** A character absent from every part and distinct from the separator is absent from the join. */
  lemma {:induction false} JoinKeepsOut(parts: seq<string>, sep: char, c: char)
    requires c != sep
    requires forall k :: 0 <= k < |parts| ==> c !in parts[k]
    ensures c !in Join(parts, sep)
  {
    if |parts| > 1 {
      JoinKeepsOut(parts[1..], sep, c);
      assert c !in parts[0] + [sep];
    }
  }

  /** Joining the pieces of a split with the same separator gives the string back. */
  lemma {:induction false} JoinSplit(s: string, sep: char)
    ensures Join(Split(s, sep), sep) == s
  {
    if |s| > 0 {
      var rest := Split(s[1..], sep);
      JoinSplit(s[1..], sep);
      if s[0] == sep {
        assert ([""] + rest)[1..] == rest;
        assert s == [sep] + s[1..];
      } else if |rest| == 1 {
        assert s == [s[0]] + s[1..];
      } else {
        var parts := [[s[0]] + rest[0]] + rest[1..];
        assert parts[1..] == rest[1..];
        assert s == [s[0]] + s[1..];
      }
    }
  }

  lemma {:induction false} SplitWithoutSeparator(s: string, sep: char)
    requires sep !in s
    ensures Split(s, sep) == [s]
  {
    if |s| > 0 {
      SplitWithoutSeparator(s[1..], sep);
      assert s == [s[0]] + s[1..];
    }
  }

  lemma {:induction false} SplitAtFirstSeparator(a: string, sep: char, b: string)
    requires sep !in a
    ensures Split(a + [sep] + b, sep) == [a] + Split(b, sep)
  {
    var s := a + [sep] + b;
    if |a| == 0 {
      assert s[1..] == b;
    } else {
      assert s[1..] == a[1..] + [sep] + b;
      SplitAtFirstSeparator(a[1..], sep, b);
      assert a == [a[0]] + a[1..];
    }
  }

  /** Strict lexicographic order on code points; a proper prefix comes first. */
  predicate LexLess(a: string, b: string)
  {
    if |a| == 0 then |b| > 0
    else if |b| == 0 then false
    else a[0] < b[0] || (a[0] == b[0] && LexLess(a[1..], b[1..]))
  }

  lemma {:induction false} LexTrichotomy(a: string, b: string)
    ensures a == b || LexLess(a, b) || LexLess(b, a)
    ensures !(LexLess(a, b) && LexLess(b, a))
    ensures !LexLess(a, a)
  {
    if |a| > 0 && |b| > 0 {
      LexTrichotomy(a[1..], b[1..]);
      LexTrichotomy(a[1..], a[1..]);
      if a[0] == b[0] && a[1..] == b[1..] {
        assert a == [a[0]] + a[1..];
        assert b == [b[0]] + b[1..];
      }
    } else if |a| > 0 {
      LexTrichotomy(a[1..], a[1..]);
    }
  }

  lemma {:induction false} LexTransitive(a: string, b: string, c: string)
    requires LexLess(a, b) && LexLess(b, c)
    ensures LexLess(a, c)
  {
    if |a| > 0 && a[0] == b[0] && b[0] == c[0] {
      LexTransitive(a[1..], b[1..], c[1..]);
    }
  }

  /** `a.localeCompare(b)` with the collation taken to be code-point order. */
  function LocaleCompare(a: string, b: string): (r: int)
    ensures r == 0 <==> a == b
    ensures r < 0 <==> LexLess(a, b)
    ensures -1 <= r <= 1
  {
    LexTrichotomy(a, b);
    if LexLess(a, b) then -1 else if a == b then 0 else 1
  }
}

=== FILE: validation.dfy ===
// The employee form's validation: every field is required, and a blank field
// yields one error naming the field and its human-readable label.
module Validation {
  import opened Common
  import opened Text

  datatype ValidationError = ValidationError(field: string, message: string)

  datatype ValidationResult = ValidationResult(isValid: bool, errors: seq<ValidationError>)

  /** The four text fields of the employee form that are checked. */
  datatype EmployeeForm = EmployeeForm(name: string, phone: string, birthday: string, role: string)

  /** One entry of the checklist: the field's key, the value typed, the label shown to the user. */
  datatype RequiredField = RequiredField(field: string, value: string, title: string)

  const RequiredMessage: string := "Это поле обязательно для заполнения"

  /** `isRequired`: an error for an empty or whitespace-only value, nothing otherwise. */
  function IsRequired(value: string, fieldName: string): (r: Option<ValidationError>)
    ensures r.Some? <==> IsBlank(value)
    ensures r.Some? ==> r.value.field == fieldName && r.value.message == RequiredMessage
  {
    if value == "" || Trim(value) == "" then Some(ValidationError(fieldName, RequiredMessage)) else None
  }

  /** The error `validateEmployee` reports for a blank entry: its message is prefixed with the label. */
  function LabelledError(f: RequiredField): ValidationError
  {
    ValidationError(f.field, f.title + ": " + RequiredMessage)
  }

  /** The checklist, in the order the form checks it. */
  function RequiredFields(e: EmployeeForm): seq<RequiredField>
  {
    [ RequiredField("name", e.name, "ФИО"),
      RequiredField("phone", e.phone, "Телефон"),
      RequiredField("birthday", e.birthday, "Дата рождения"),
      RequiredField("role", e.role, "Должность") ]
  }

  /** The position of a form field in the checklist; fields outside the form rank last. */
  function FieldRank(field: string): nat
  {
    if field == "name" then 0
    else if field == "phone" then 1
    else if field == "birthday" then 2
    else if field == "role" then 3
    else 4
  }

  /** The label the form shows for a field key. */
  function LabelOf(field: string): string
  {
    if field == "name" then "ФИО"
    else if field == "phone" then "Телефон"
    else if field == "birthday" then "Дата рождения"
    else "Должность"
  }

  predicate RanksIncrease(fields: seq<RequiredField>)
  {
    forall i, j :: 0 <= i < j < |fields| ==> FieldRank(fields[i].field) < FieldRank(fields[j].field)
  }

  predicate ErrorRanksIncrease(errors: seq<ValidationError>)
  {
    forall i, j :: 0 <= i < j < |errors| ==> FieldRank(errors[i].field) < FieldRank(errors[j].field)
  }

  predicate HasError(errors: seq<ValidationError>, field: string)
  {
    exists j :: 0 <= j < |errors| && errors[j].field == field
  }

  /**
   * The `forEach` over the checklist: each blank entry pushes its error, with
   * the entry's label put in front of the message.
   */
  function CollectErrors(fields: seq<RequiredField>): (errors: seq<ValidationError>)
    ensures |errors| <= |fields|
  {
    if |fields| == 0 then []
    else
      var error := IsRequired(fields[0].value, fields[0].field);
      var head := if error.Some? then [error.value.(message := fields[0].title + ": " + error.value.message)] else [];
      head + CollectErrors(fields[1..])
  }

  /** One step of the `forEach`: the first entry's error, if any, then the rest's. */
  lemma CollectStep(fields: seq<RequiredField>)
    requires |fields| > 0
    ensures CollectErrors(fields) ==
      (if IsBlank(fields[0].value) then [LabelledError(fields[0])] else []) + CollectErrors(fields[1..])
  {
  }

  /** The blank entry a collected error comes from. */
  lemma {:induction false} SourceEntry(fields: seq<RequiredField>, j: int) returns (k: nat)
    requires 0 <= j < |CollectErrors(fields)|
    ensures k < |fields| && IsBlank(fields[k].value) && CollectErrors(fields)[j] == LabelledError(fields[k])
  {
    var errors := CollectErrors(fields);
    var rest := CollectErrors(fields[1..]);
    var offset := |errors| - |rest|;
    assert errors[offset..] == rest;
    if j < offset {
      k := 0;
    } else {
      var k' := SourceEntry(fields[1..], j - offset);
      assert errors[j] == rest[j - offset];
      assert fields[1..][k'] == fields[k' + 1];
      k := k' + 1;
    }
  }

  /** Every blank entry has its labelled error collected. */
  lemma {:induction false} BlankAreCollected(fields: seq<RequiredField>)
    ensures forall k :: 0 <= k < |fields| && IsBlank(fields[k].value) ==> LabelledError(fields[k]) in CollectErrors(fields)
  {
    if |fields| > 0 {
      BlankAreCollected(fields[1..]);
      var errors := CollectErrors(fields);
      var rest := CollectErrors(fields[1..]);
      assert errors[|errors| - |rest|..] == rest;
      forall k | 0 <= k < |fields| && IsBlank(fields[k].value)
        ensures LabelledError(fields[k]) in errors
      {
        if k == 0 {
          assert errors[0] == LabelledError(fields[0]);
        } else {
          assert fields[k] == fields[1..][k - 1];
          assert LabelledError(fields[k]) in rest;
        }
      }
    }
  }

  /** The errors come out in checklist order. */
  lemma {:induction false} CollectedInOrder(fields: seq<RequiredField>)
    requires RanksIncrease(fields)
    ensures ErrorRanksIncrease(CollectErrors(fields))
  {
    if |fields| > 0 {
      CollectedInOrder(fields[1..]);
      var errors := CollectErrors(fields);
      var rest := CollectErrors(fields[1..]);
      var offset := |errors| - |rest|;
      assert errors[offset..] == rest;
      if offset == 1 {
        forall j | 0 <= j < |rest|
          ensures FieldRank(fields[0].field) < FieldRank(rest[j].field)
        {
          var k := SourceEntry(fields[1..], j);
          assert fields[1..][k] == fields[k + 1];
        }
        forall i, j | 0 <= i < j < |errors|
          ensures FieldRank(errors[i].field) < FieldRank(errors[j].field)
        {
          assert errors[j] == rest[j - 1];
          if i > 0 {
            assert errors[i] == rest[i - 1];
          }
        }
      }
    }
  }

  /** The error list is empty exactly when no entry is blank. */
  lemma NoErrorsIffNoBlank(fields: seq<RequiredField>)
    ensures |CollectErrors(fields)| == 0 <==> forall k :: 0 <= k < |fields| ==> !IsBlank(fields[k].value)
  {
    BlankAreCollected(fields);
    if |CollectErrors(fields)| > 0 {
      var k := SourceEntry(fields, 0);
    }
  }

  /** For checklist fields with distinct keys, an error names a field exactly when that field is blank. */
  lemma HasErrorIffBlank(fields: seq<RequiredField>, k: int)
    requires 0 <= k < |fields|
    requires forall i :: 0 <= i < |fields| && i != k ==> fields[i].field != fields[k].field
    ensures HasError(CollectErrors(fields), fields[k].field) <==> IsBlank(fields[k].value)
  {
    BlankAreCollected(fields);
    var errors := CollectErrors(fields);
    if IsBlank(fields[k].value) {
      var j :| 0 <= j < |errors| && errors[j] == LabelledError(fields[k]);
    }
    if HasError(errors, fields[k].field) {
      var j :| 0 <= j < |errors| && errors[j].field == fields[k].field;
      var k' := SourceEntry(fields, j);
    }
  }

  /** Each collected error carries its entry's label in front of the message. */
  lemma CollectedMessages(fields: seq<RequiredField>)
    requires forall k :: 0 <= k < |fields| ==> LabelOf(fields[k].field) == fields[k].title && FieldRank(fields[k].field) < 4
    ensures forall j :: 0 <= j < |CollectErrors(fields)| ==>
      FieldRank(CollectErrors(fields)[j].field) < 4 &&
      CollectErrors(fields)[j].message == LabelOf(CollectErrors(fields)[j].field) + ": " + RequiredMessage
  {
    forall j | 0 <= j < |CollectErrors(fields)|
      ensures FieldRank(CollectErrors(fields)[j].field) < 4
      ensures CollectErrors(fields)[j].message == LabelOf(CollectErrors(fields)[j].field) + ": " + RequiredMessage
    {
      var k := SourceEntry(fields, j);
    }
  }

  /** `validateEmployee`: the form is valid exactly when no required field is blank. */
  function ValidateEmployee(e: EmployeeForm): (r: ValidationResult)
    ensures r.isValid <==> |r.errors| == 0
    ensures r.isValid <==> !IsBlank(e.name) && !IsBlank(e.phone) && !IsBlank(e.birthday) && !IsBlank(e.role)
    ensures |r.errors| <= 4
    ensures HasError(r.errors, "name") <==> IsBlank(e.name)
    ensures HasError(r.errors, "phone") <==> IsBlank(e.phone)
    ensures HasError(r.errors, "birthday") <==> IsBlank(e.birthday)
    ensures HasError(r.errors, "role") <==> IsBlank(e.role)
    ensures forall j :: 0 <= j < |r.errors| ==>
      FieldRank(r.errors[j].field) < 4 && r.errors[j].message == LabelOf(r.errors[j].field) + ": " + RequiredMessage
    ensures ErrorRanksIncrease(r.errors)
  {
    var fields := RequiredFields(e);
    ValidateChecklist(fields, e);
    ValidationResult(|CollectErrors(fields)| == 0, CollectErrors(fields))
  }

  /** The facts about the four-entry checklist that `ValidateEmployee` states. */
  lemma ValidateChecklist(fields: seq<RequiredField>, e: EmployeeForm)
    requires fields == RequiredFields(e)
    ensures |CollectErrors(fields)| == 0 <==> !IsBlank(e.name) && !IsBlank(e.phone) && !IsBlank(e.birthday) && !IsBlank(e.role)
    ensures HasError(CollectErrors(fields), "name") <==> IsBlank(e.name)
    ensures HasError(CollectErrors(fields), "phone") <==> IsBlank(e.phone)
    ensures HasError(CollectErrors(fields), "birthday") <==> IsBlank(e.birthday)
    ensures HasError(CollectErrors(fields), "role") <==> IsBlank(e.role)
    ensures forall j :: 0 <= j < |CollectErrors(fields)| ==>
      FieldRank(CollectErrors(fields)[j].field) < 4 &&
      CollectErrors(fields)[j].message == LabelOf(CollectErrors(fields)[j].field) + ": " + RequiredMessage
    ensures ErrorRanksIncrease(CollectErrors(fields))
  {
    NoErrorsIffNoBlank(fields);
    HasErrorIffBlank(fields, 0);
    HasErrorIffBlank(fields, 1);
    HasErrorIffBlank(fields, 2);
    HasErrorIffBlank(fields, 3);
    ChecklistMessagesAndOrder(fields, e);
  }

  lemma ChecklistMessagesAndOrder(fields: seq<RequiredField>, e: EmployeeForm)
    requires fields == RequiredFields(e)
    ensures forall j :: 0 <= j < |CollectErrors(fields)| ==>
      FieldRank(CollectErrors(fields)[j].field) < 4 &&
      CollectErrors(fields)[j].message == LabelOf(CollectErrors(fields)[j].field) + ": " + RequiredMessage
    ensures ErrorRanksIncrease(CollectErrors(fields))
  {
    assert forall k :: 0 <= k < 4 ==> LabelOf(fields[k].field) == fields[k].title && FieldRank(fields[k].field) == k;
    CollectedMessages(fields);
    CollectedInOrder(fields);
  }

  /** Four entries of which only the last is filled give the first three errors, in order. */
  lemma LastOfFourFilled(fields: seq<RequiredField>)
    requires |fields| == 4
    requires IsBlank(fields[0].value) && IsBlank(fields[1].value) && IsBlank(fields[2].value) && !IsBlank(fields[3].value)
    ensures CollectErrors(fields) == [LabelledError(fields[0]), LabelledError(fields[1]), LabelledError(fields[2])]
  {
    CollectStep(fields[3..]);
    assert fields[3..][1..] == [];
    CollectStep(fields[2..]);
    assert fields[2..][1..] == fields[3..];
    CollectStep(fields[1..]);
    assert fields[1..][1..] == fields[2..];
    CollectStep(fields);
  }

  /**
   * A form with the name, phone and birthday left empty reports those three, in form order
   * (the form is a parameter fixed by `requires`).
   */
  lemma ThreeBlankFields(e: EmployeeForm)
    requires e == EmployeeForm("", "", "", "driver")
    ensures ValidateEmployee(e).errors ==
      [ ValidationError("name", "ФИО: " + RequiredMessage),
        ValidationError("phone", "Телефон: " + RequiredMessage),
        ValidationError("birthday", "Дата рождения: " + RequiredMessage) ]
  {
    var fields := RequiredFields(e);
    assert e.role[0] == 'd' && !IsWhitespace('d');
    LastOfFourFilled(fields);
    assert ValidateEmployee(e).errors == CollectErrors(fields);
    ThreeLabels(fields, e);
  }

  /** The first three labelled errors of the checklist, written out. */
  lemma ThreeLabels(fields: seq<RequiredField>, e: EmployeeForm)
    requires fields == RequiredFields(e)
    ensures [LabelledError(fields[0]), LabelledError(fields[1]), LabelledError(fields[2])] ==
      [ ValidationError("name", "ФИО: " + RequiredMessage),
        ValidationError("phone", "Телефон: " + RequiredMessage),
        ValidationError("birthday", "Дата рождения: " + RequiredMessage) ]
  {
    assert "ФИО" + ": " == "ФИО: " && "Телефон" + ": " == "Телефон: " && "Дата рождения" + ": " == "Дата рождения: ";
  }

  /** A value of spaces only is as missing as an empty one. */
  lemma WhitespaceIsMissing()
    ensures IsRequired("  \t ", "name") == Some(ValidationError("name", RequiredMessage))
  {
  }
}
